=== FILE: README.md ===
# A verified model of the swipe-to-match recruiting app

The application matches doctors with clinics. A candidate signs up and
describes themself during onboarding. They then swipe through a deck of
clinic listings ordered by a compatibility score. Accepting a listing
creates a match, and the match carries a two-sided chat. Recruiters with
admin rights edit the listings, answer candidates and read usage statistics.
An external text generator supplies extra listings, which are normalised
before they enter the catalog.

This project models the rules under the user interface as immutable Dafny
data and pure functions, and proves what they promise:

- `types.dfy` (`Types`): the records — listing, candidate profile, chat
  message, match, usage statistics.
- `seqs.dfy` (`Seqs`): the list primitives the code relies on — first-index
  search, filtering, and the stable descending sort.
- `text.dfy` (`Text`): the string primitives — `trim`, `toLowerCase`,
  `includes`, the first comma-separated part, and decimal rendering.
- `store.dfy` (`Store`): the persistent store as one value. It holds users,
  listings, matches, the session pointer and the counters. Every store
  operation is a function from store to store.
- `swipe.dfy` (`Swipe`): the compatibility score, the ordered deck, and
  the deck component's swipe.
- `generator.dfy` (`Generator`): normalisation of generated listings —
  ids, list fields, image and video.
- `chat.dfy` (`Chat`): the candidate sending a chat message, and the
  "awaiting reply" notice.
- `controller.dfy` (`Controller`): the application shell's handlers. These
  cover catalog merge, sign-up and login, onboarding, the swipe, recruiter
  replies, admin rights and account deletion.
- `recruiter.dfy` (`Recruiter`): the dashboard. This covers tag editing,
  listing creation, save and delete, reply sending, the view total and the
  popularity order.

Clock readings, random draws and generated ids are parameters. The
generator's answer is an input: either a failure or a list of parsed
records.

## Model

| member | source | states |
|---|---|---|
| Seqs.FindIndex | services/dbService.ts:61 | `findIndex`: -1 exactly when no element satisfies the predicate, otherwise the first index that does |
| Seqs.Filter | services/dbService.ts:83 | `filter`: an element is kept iff it was present and satisfies the predicate; never longer |
| Seqs.FilterAppend | services/dbService.ts:137 | filtering distributes over concatenation, so the relative order of kept elements is preserved |
| Seqs.FilterAll | services/dbService.ts:137 | a filter every element passes returns the list unchanged |
| Seqs.FilterNone | services/dbService.ts:137 | a filter no element passes returns the empty list |
| Seqs.FilterKeepsCopies | components/RecruiterDashboard.tsx:128 | a filter keeps every copy of each element it accepts |
| Seqs.SortDesc | components/SwipeView.tsx:58 | the sort with comparator `b - a`: a permutation of its input, non-increasing in the key |
| Seqs.SortDescStable | components/SwipeView.tsx:58 | the sort is stable: the elements with any one key value appear in their original order |
| Seqs.InsertDesc | components/SwipeView.tsx:58 | inserting into a non-increasing list adds exactly that element and keeps the order |
| Text.Trim | App.tsx:160 | `trim`: the result is a middle slice of the input with only white space before and after it, and it neither starts nor ends with white space |
| Text.TrimIdempotent | App.tsx:160 | trimming a trimmed string changes nothing |
| Text.TrimStart | App.tsx:160 | only leading white space is removed, and the result starts with a non-space |
| Text.TrimEnd | App.tsx:160 | only trailing white space is removed, and the result ends with a non-space |
| Text.Lower | components/SwipeView.tsx:33-34 | `toLowerCase` keeps the length and folds each character independently |
| Text.ContainsIffOccurs | components/SwipeView.tsx:35 | the recursive `includes` holds iff the needle occurs at some position of the haystack |
| Text.FirstSegment | components/SwipeView.tsx:35 | `split(',')[0]`: a prefix with no comma, followed by a comma unless it is the whole string |
| Text.Decimal | services/geminiService.ts:116 | the decimal rendering is non-empty and all digits |
| Text.DecimalInjective | services/geminiService.ts:116 | different numbers render differently |
| Store.UserIndex | services/dbService.ts:61 | -1 iff no user has the email, otherwise the first position of one that does |
| Store.SaveUser | services/dbService.ts:59-74 | replaces the first user with that exact email or appends, and points the session at that email; nothing else changes |
| Store.GetUser | services/dbService.ts:76-79 | none iff no user has exactly that email, otherwise the first such user |
| Store.GetAfterSave | services/dbService.ts:59-79 | reading back a saved user returns it, and other emails read as before |
| Store.OtherUsers | services/dbService.ts:83 | the users kept are exactly those registered under another address |
| Store.OtherUsersKeepsOrder | services/dbService.ts:83 | removal distributes over any split of the user list, so the kept users stay in their stored order |
| Store.DeleteUser | services/dbService.ts:81-91 | the user list becomes the other users in their stored order; clears the session iff it names that email; nothing else changes |
| Store.GetSessionUser | services/dbService.ts:101-105 | nothing without a (non-empty) session pointer; otherwise a stored user with that email iff one exists, and then the first such user |
| Store.ClearSession | services/dbService.ts:107-109 | only the session pointer changes, to none |
| Store.HospitalIndex | services/dbService.ts:122 | -1 iff no listing has the id, otherwise a position of one that does |
| Store.UpdateHospital | services/dbService.ts:120-127 | replaces the first listing with the id; an absent id is a no-op; the length never changes |
| Store.AddHospital | services/dbService.ts:129-133 | prepends with no de-duplication: one longer, new head, old catalog as tail |
| Store.DeleteHospital | services/dbService.ts:135-139 | a listing survives iff its id differs |
| Store.DeleteHospitalKeepsOrder | services/dbService.ts:135-139 | deleting from a concatenation deletes from each part, so the order of the rest is kept |
| Store.DeleteUndoesAdd | services/dbService.ts:129-139 | deleting the id of a just-added listing gives what deleting it from the old catalog gives |
| Store.SaveMatch | services/dbService.ts:146-154 | a no-op when a match for that listing exists, otherwise a prepend; afterwards a match for the listing exists |
| Store.SaveMatchIdempotent | services/dbService.ts:146-154 | saving the same match twice equals saving it once |
| Store.SaveMatchKeepsOneMatchPerHospital | services/dbService.ts:146-154 | saving keeps "at most one match per listing id" |
| Store.UpdateMatch | services/dbService.ts:156-163 | replaces the first match with the id; an absent id is a no-op; the length never changes |
| Store.UpdateMatchKeepsOneMatchPerHospital | services/dbService.ts:156-163 | an update that keeps the match's listing keeps one match per listing |
| Store.IncrementStat | services/dbService.ts:35-56 | exactly the named counter goes up by one; a view with no id changes nothing; an absent view entry counts as 0; other entries are unchanged |
| Store.IncrementAllCountsViews | services/dbService.ts:35-56 | over any sequence of events, a listing's view count grows by its view events, no counter decreases, and only the counters change |
| Swipe.Score | components/SwipeView.tsx:24-52 | the score is within [50, 99]; it is 50 iff no bonus applies; it is 99 when all three apply; otherwise it is 50 plus the bonuses |
| Swipe.BonusRules | components/SwipeView.tsx:27-45 | size bonus iff the preferred size is non-empty and listed verbatim; vibe bonus iff either lower-cased vibe overlap holds; specialty bonus iff some focus mentions the specialty |
| Swipe.AnyFocusContainsIff | components/SwipeView.tsx:41-43 | `some(... includes ...)` holds iff some focus contains the specialty, ignoring case |
| Swipe.EmptyVibeSegmentAlwaysMatches | components/SwipeView.tsx:35 | a listing vibe that is empty or starts with a comma earns the vibe bonus from every candidate who names a vibe |
| Swipe.ScoreListing | components/SwipeView.tsx:48-53 | distance within 5..54, score within bounds, every other field copied |
| Swipe.DistanceIgnoredByScore | components/SwipeView.tsx:48-53 | the random distance has no influence on the score |
| Swipe.LoadDeck | components/SwipeView.tsx:23-58 | the deck is a permutation of the scored catalog, ordered by non-increasing score, with every score in bounds |
| Swipe.LoadDeckStable | components/SwipeView.tsx:58 | cards with equal scores keep their catalog order |
| Swipe.SwipeCard | components/SwipeView.tsx:64-81 | the index advances by one; only a right swipe stores a match, with no messages and the current listing, unless that listing already has one |
| Generator.HospitalImage | services/geminiService.ts:30-42 | the first keyword in priority order found in the lower-cased name picks the picture; with none, the index parity picks one of two |
| Generator.AsList | services/geminiService.ts:118-119 | an array is kept, and a single string becomes a one-element array |
| Generator.Normalise | services/geminiService.ts:113-123 | id minted by mode, list fields coerced, image from the name, video kept when non-empty else the default, all other fields copied |
| Generator.FetchResult | services/geminiService.ts:110-128 | a failure yields nothing; otherwise the same length and order, each record normalised at its own index |
| Generator.DashDecimalSuffixesDiffer | services/geminiService.ts:116 | strings ending in "-" and different decimal numbers differ |
| Generator.DiscoveryIdsDistinct | services/geminiService.ts:116 | discovery ids within one reply are pairwise distinct, whatever ids and clock readings came in |
| Generator.StrictKeepsIds | services/geminiService.ts:116 | strict mode keeps the generator's ids |
| Chat.Send | components/ChatScreen.tsx:23-42 | blank input sends nothing; otherwise exactly one candidate message with the untrimmed text is appended after the old ones, becomes the preview, and the id and listing are kept |
| Chat.SendLeavesCandidateWaiting | components/ChatScreen.tsx:24-90 | nothing is sent iff the input is all white space; after a send the waiting notice shows |
| Controller.MergeCatalog | App.tsx:147-151 | the existing catalog is an untouched prefix; a listing is in the rest iff it is incoming and its id is new |
| Controller.MergeCatalogAppend | App.tsx:147-151 | merging a batch `a + b` is merging `a` and then appending what merging `b` alone would append, so the batch is processed in order |
| Controller.MergeCatalogSingle | App.tsx:147-151 | a one-listing batch is appended iff its id is not in the catalog; with the previous row this fixes the merged catalog for every batch |
| Controller.MergeCatalogIdempotent | App.tsx:147-151 | merging the same batch again adds nothing |
| Controller.MergeCatalogAllNew | App.tsx:147-151 | a batch whose ids are all new is appended whole and in order, repeats within the batch included |
| Controller.LoadProfiles | App.tsx:143-156 | the catalog becomes the merge of the normalised reply into the current one, and the store gets it too, also on failure, when it equals the old catalog; a listing is appended iff it was fetched and its id is new |
| Controller.SignUpWith | App.tsx:187-210 | a known address writes nothing and switches to login; otherwise the cleaned-address profile, admin exactly for the super admin, is appended to the users, signed in and counted as a registration, with the catalog, matches, view counts and other users unchanged |
| Controller.SignUpThenLogIn | App.tsx:187-239 | after a registration, logging in with the same form succeeds and yields the registered profile |
| Controller.SubmitSignUpThenLogIn | App.tsx:167-241 | after the address check, a sign-up form with an address not yet known and a password of at least four characters registers, and a login submission of the same form then succeeds |
| Controller.LogInWith | App.tsx:213-239 | unknown address or wrong password writes nothing; a correct login adds (never removes) admin for the super admin, rewrites only that user's record, signs in and counts one login; nothing else changes |
| Controller.RequestReset | App.tsx:167-178 | a reset writes nothing; the link is reported sent iff some user has the address, and then the form switches to login |
| Controller.SubmitValidEmail | App.tsx:167-241 | after the address check: a reset only looks up; a missing or under-4-character password is refused with no write; otherwise sign-up or login proper; only a registration or successful login writes |
| Controller.SubmitAuth | App.tsx:159-241 | the address is lower-cased then trimmed; without '@' it is refused before the store is read; only a registration or successful login writes |
| Controller.FinishOnboarding | App.tsx:243-263 | the checks run in the order name, bio, experience and the first failure is reported: a missing name iff the name is absent or blank; a missing bio iff the name passes and the bio is absent, blank or the default; missing experience iff both pass and the years are absent or not positive; the profile is saved iff all pass, and otherwise nothing is written; a save replaces or appends only that user's record and signs them in, with every other address reading as before and nothing else changed |
| Controller.DeleteAccount | App.tsx:279-292 | after deletion and logout no record has the address, the other users remain in their stored order, nobody is signed in, and the catalog, matches and counters are kept |
| Controller.HandleSwipe | App.tsx:295-329 | past the end nothing happens; otherwise the index advances by one; a right swipe prepends a new empty match locally and saves it; a discovery fetch starts iff not in detail view, not loading and within two cards of the end |
| Controller.RepeatedAcceptDivergesFromStore | App.tsx:295-314 | accepting an already matched listing leaves the store alone but still grows the local list |
| Controller.EnterDeck | App.tsx:119-133 | an empty stored catalog asks for a strict fetch and leaves the shell's catalog and index as they were; otherwise the stored catalog is shown and an index past its end restarts at 0 |
| Controller.TrackView | App.tsx:136-141 | showing the card at the index adds one view to that listing's count; every other count and field is unchanged, and a listing with an empty id counts nothing |
| Controller.WithReply | App.tsx:357-367 | exactly one recruiter message is appended after the old ones and becomes the preview; id and listing are kept |
| Controller.RecruiterSendMessage | App.tsx:355-375 | an unknown match id changes nothing; otherwise the first match with the id gets the reply, which is written to the store and to every local match with that id, and one message is counted |
| Controller.ReplyEndsWaiting | App.tsx:357-367 | after a recruiter reply the waiting notice is gone and the preview is the reply |
| Controller.UpdateMatchEverywhere | App.tsx:332-335 | the candidate's chat update reaches the store and the local list and moves no counter |
| Controller.CandidateSendKeepsOneMatchPerHospital | App.tsx:332-335 | storing a candidate message keeps one match per listing |
| Controller.ToggleAdmin | App.tsx:378-392 | flips the admin flag of exactly the users with the target address, and of the signed-in profile iff it is that user; nothing else changes |
| Controller.ToggleAdminTwice | App.tsx:378-392 | toggling twice restores the store and the profile |
| Recruiter.Toggle | components/RecruiterDashboard.tsx:127-129 | a present tag is removed, every copy of it, with the other tags kept in order; an absent tag is appended at the end |
| Recruiter.TogglePresentKeepsOthers | components/RecruiterDashboard.tsx:127-129 | removing a present tag keeps every copy of each other tag, repeated custom tags included |
| Recruiter.ToggleTwiceRestores | components/RecruiterDashboard.tsx:124-131 | toggling an absent tag twice restores the list |
| Recruiter.TogglePresentTwice | components/RecruiterDashboard.tsx:124-131 | toggling a present tag twice leaves one copy of it at the end |
| Recruiter.ToggleTag | components/RecruiterDashboard.tsx:124-131 | no open form: nothing; otherwise the named list field is toggled and every other field of the form is unchanged |
| Recruiter.SetList | components/RecruiterDashboard.tsx:130 | setting one list field changes that field and no other |
| Recruiter.AddCustomTag | components/RecruiterDashboard.tsx:133-141 | blank input or no form: nothing; otherwise the trimmed input is appended to the perks and the input is cleared |
| Recruiter.NewListing | components/RecruiterDashboard.tsx:73-90 | the id is the clock reading in decimal; sizes, rhythms, empty lists, distance 0 and percentage 100 are the fixed defaults |
| Recruiter.NewListingAboveEveryScore | components/RecruiterDashboard.tsx:86 | an authored listing's percentage of 100 is above every score the deck computes, which stops at 99 |
| Recruiter.CreateListing | App.tsx:345-348 | the new listing goes to the front of the stored and the local catalogs, keeping them in agreement |
| Recruiter.SaveListing | App.tsx:339-342 | the store replaces the first listing with the id, the local catalog every one |
| Recruiter.SaveListingKeepsSync | App.tsx:339-342 | with distinct ids, saving keeps the stored and local catalogs equal |
| Recruiter.SaveListingDivergesOnRepeatedId | App.tsx:339-342 | in any synchronised catalog where the form's id occurs twice, saving replaces a later copy that differs from the form locally but not in the store, so the two catalogs disagree |
| Recruiter.DeleteListing | App.tsx:350-353 | every listing with the id goes from both catalogs; the shell's catalog is filtered exactly as the store's deletion would filter it, so the other listings keep their order and copies; catalogs in agreement stay in agreement |
| Recruiter.SendReply | components/RecruiterDashboard.tsx:117-122 | without a selected conversation, or with a blank reply, nothing happens; otherwise the untrimmed reply is sent and the input cleared |
| Recruiter.SumValuesRemove | components/RecruiterDashboard.tsx:264 | the sum of view counts can be taken entry by entry in any order |
| Recruiter.TotalViews | components/RecruiterDashboard.tsx:264 | the total equals the sum of all view counts |
| Recruiter.ViewRaisesTotal | components/RecruiterDashboard.tsx:264 | each counted view raises the total by exactly one |
| Recruiter.Popularity | components/RecruiterDashboard.tsx:279-281 | a permutation of the catalog ordered by non-increasing view count, a missing id counting 0 |
| Recruiter.PopularityStable | components/RecruiterDashboard.tsx:279-281 | listings with equal view counts keep their catalog order |

## Left out

- Persistence: `localStorage` and the JSON round trip are not modelled. The store is one in-memory value, and an absent key reads as empty.
- The generator call: its prompts, its schema and the network are left out. Its answer is an input, either `Failed` or the parsed records.
- Generator.Normalise: the model assumes every parsed record has every field. The response schema (services/geminiService.ts:104) leaves `region_vibe`, `specialty_focus`, `distance_km` and `video_url` optional, and the spread at services/geminiService.ts:113-114 carries an absent one over as absent. Of these only `video_url` is optional in the model's raw record, and its absence gets the default video; the other three are not modelled as absent. Only `size` and `work_rhythm` are modelled as possibly coming as a single string.
- The remote authentication client, bootstrapping, all rendering, gestures, alerts, confirmation dialogs, timers and view routing are left out. The simulated chat window is left out too: it is timer and random driven, and its append rule repeats the chat screen's.
- The legal text, the video embed URL and the bar widths in the popularity chart are left out. The legal text is an opaque string. The embed URL depends on the URL parser. The bar widths are floating point.
- Text.Lower: only ASCII and Latin-1 capitals are folded. Full Unicode case mapping, including the multi-character expansions, is not modelled.
- Text.Trim: the white-space set is the ECMAScript one. Strings are sequences of code points, so lengths are code-point counts, not UTF-16 units. This affects the 4-character password rule only for characters outside the Basic Multilingual Plane.
- Swipe.SwipeCard: requires an index inside the deck. With the index past the end the component would read an undefined card, and its buttons are not shown then.
- Recruiter.Popularity: the dashboard sorts the catalog it receives in place. The model returns the sorted copy and leaves the argument unchanged.
- Store.GetAllUsers, Store.SaveAllUsers, Store.GetHospitals, Store.SaveHospitals and Store.GetMatches are plain reads and writes of one store field. They carry no contract of their own. Their callers' contracts cover them.
- The candidate's chat send does not count a message. Only the recruiter's reply moves the message counter, although a message counter for every chat message would be the natural reading. The model follows the code.
- Admin toggling reads the user list from the store, not from the shell's state. The model does the same.

=== FILE: chat.dfy ===
/** The candidate's side of a conversation with a matched facility. */
module Chat {
  import opened Types
  import opened Text

  /** The candidate sends `input`: nothing happens when it is blank;
      otherwise one candidate message carrying the input as typed (not
      trimmed) is appended and becomes the last-message preview. `msgId` and
      `timestamp` come from the clock. */
  function Send(m: Match, input: string, msgId: string, timestamp: string): (r: Option<Match>)
    ensures r.None? <==> Trim(input) == ""
    ensures r.Some? ==>
              && |r.value.messages| == |m.messages| + 1
              && r.value.messages[..|m.messages|] == m.messages
              && r.value.messages[|m.messages|] == ChatMessage(msgId, User, input, timestamp)
              && r.value.lastMessage == Some(input)
              && r.value.id == m.id && r.value.hospital == m.hospital
  {
    if Trim(input) == "" then None
    else Some(m.(messages := m.messages + [ChatMessage(msgId, User, input, timestamp)],
                 lastMessage := Some(input)))
  }

  /** The conversation shows the "waiting for the recruiter" notice: there is
      a message and the last one is the candidate's. */
  predicate AwaitingReply(messages: seq<ChatMessage>)
  {
    |messages| > 0 && messages[|messages| - 1].sender == User
  }

  /** Blank input sends nothing; anything else leaves the candidate waiting. */
  lemma SendLeavesCandidateWaiting(m: Match, input: string, msgId: string, timestamp: string)
    ensures Send(m, input, msgId, timestamp).None? <==> Blank(input)
    ensures Send(m, input, msgId, timestamp).Some? ==>
              AwaitingReply(Send(m, input, msgId, timestamp).value.messages)
  {
    TrimEmptyIffBlank(input);
  }
}

=== FILE: controller.dfy ===
/** The decisions the application shell takes in its event handlers: merging
    fetched listings into the catalog, signing up and in, finishing
    onboarding, swiping, recruiter replies, and granting admin rights. */
module Controller {
  import opened Types
  import opened Text
  import opened Seqs
  import Store
  import Generator
  import Chat
  import opened Swipe

  // ------------------------------------------------------ catalog merge

  /** The ids of a list of listings. */
  function Ids(hs: seq<HospitalProfile>): set<string>
  {
    set h | h in hs :: h.id
  }

  /** The incoming listings whose id is not among `known`, in order. */
  function Unseen(incoming: seq<HospitalProfile>, known: set<string>): seq<HospitalProfile>
  {
    Filter(incoming, (h: HospitalProfile) => h.id !in known)
  }

  /** The catalog after a fetch: the current catalog untouched, then every
      incoming listing whose id the current catalog lacks. Repeats within
      the incoming batch itself are kept. */
  function MergeCatalog(existing: seq<HospitalProfile>, incoming: seq<HospitalProfile>)
    : (r: seq<HospitalProfile>)
    ensures |existing| <= |r| <= |existing| + |incoming|
    ensures r[..|existing|] == existing
    ensures forall h :: h in r[|existing|..] <==> h in incoming && h.id !in Ids(existing)
  {
    var unseen := Unseen(incoming, Ids(existing));
    assert (existing + unseen)[|existing|..] == unseen;
    existing + unseen
  }

  /** Merging the same batch a second time adds nothing. */
  lemma MergeCatalogIdempotent(existing: seq<HospitalProfile>, incoming: seq<HospitalProfile>)
    ensures MergeCatalog(MergeCatalog(existing, incoming), incoming) == MergeCatalog(existing, incoming)
  {
    var once := MergeCatalog(existing, incoming);
    forall i | 0 <= i < |incoming| ensures incoming[i].id in Ids(once) {
      if incoming[i].id !in Ids(existing) {
        assert incoming[i] in once[|existing|..];
        assert incoming[i] in once;
      } else {
        var h :| h in existing && h.id == incoming[i].id;
        assert h == once[..|existing|][IndexOf(existing, h)];
      }
    }
    FilterNone(incoming, (h: HospitalProfile) => h.id !in Ids(once));
    assert once + [] == once;
  }

  /** Merging a batch that arrives in two parts: the second part is
      checked against the original catalog only, so the merge proceeds
      listing by listing in batch order. */
  lemma MergeCatalogAppend(existing: seq<HospitalProfile>, a: seq<HospitalProfile>, b: seq<HospitalProfile>)
    ensures MergeCatalog(existing, a + b) == MergeCatalog(existing, a) + MergeCatalog(existing, b)[|existing|..]
  {
    var p := (x: HospitalProfile) => x.id !in Ids(existing);
    FilterAppend(a, b, p);
    assert MergeCatalog(existing, b)[|existing|..] == Filter(b, p);
    AppendAssoc(existing, Filter(a, p), Filter(b, p));
  }

  /** A one-listing batch is appended iff its id is new. */
  lemma MergeCatalogSingle(existing: seq<HospitalProfile>, h: HospitalProfile)
    ensures MergeCatalog(existing, [h]) == existing + (if h.id in Ids(existing) then [] else [h])
  {
    FilterSingle(h, (x: HospitalProfile) => x.id !in Ids(existing));
  }

  /** A batch whose ids are all new is appended whole, in order, with its
      own repeats kept. */
  lemma MergeCatalogAllNew(existing: seq<HospitalProfile>, incoming: seq<HospitalProfile>)
    requires forall h :: h in incoming ==> h.id !in Ids(existing)
    ensures MergeCatalog(existing, incoming) == existing + incoming
  {
    FilterAll(incoming, (x: HospitalProfile) => x.id !in Ids(existing));
  }

  /** Fetching more listings: the generator's reply is normalised, merged
      into the shell's current catalog `profiles`, and the merged catalog is
      written over the stored one (also when the generator failed). */
  function LoadProfiles(s: Store.Store, profiles: seq<HospitalProfile>, reply: Generator.Reply,
                        mode: Generator.Mode, stamps: seq<nat>)
    : (r: (Store.Store, seq<HospitalProfile>))
    requires reply.Parsed? ==> |stamps| == |reply.profiles|
    ensures r.0 == s.(hospitals := r.1)
    ensures |profiles| <= |r.1|
    ensures r.1[..|profiles|] == profiles
    ensures reply.Failed? ==> r.1 == profiles
    ensures forall h :: h in r.1[|profiles|..] <==>
              h in Generator.FetchResult(reply, mode, stamps) && h.id !in Ids(profiles)
    ensures r.1 == MergeCatalog(profiles, Generator.FetchResult(reply, mode, stamps))
  {
    var merged := MergeCatalog(profiles, Generator.FetchResult(reply, mode, stamps));
    assert reply.Failed? ==> merged == profiles + [];
    (Store.SaveHospitals(s, merged), merged)
  }

  // -------------------------------------------------------------- auth

  /** The address that is always granted admin rights. */
  const SuperAdminEmail := "cheriet@elsan.care"

  const MinPasswordLength := 4

  datatype AuthMode = SignUp | LogIn | ForgotPassword

  datatype AuthOutcome =
    | InvalidEmail
    | ResetLinkSent
    | NoAccountForReset
    | PasswordTooShort
    | EmailTaken
    | Registered
    | WrongPassword
    | LoggedIn
    | UnknownUser

  /** The result of submitting the sign-in form: what the candidate is told,
      the store afterwards, the form mode afterwards, and the profile the
      shell now holds. */
  datatype AuthStep = AuthStep(outcome: AuthOutcome, store: Store.Store, mode: AuthMode, prefs: UserPreferences)

  /** The email as the form submits it: lower-cased, then trimmed. */
  function NormalEmail(raw: string): string
  {
    Trim(Lower(raw))
  }

  /** The password field is filled with at least four characters. */
  predicate PasswordLongEnough(form: UserPreferences)
  {
    form.password.Some? && |form.password.value| >= MinPasswordLength
  }

  /** A password reset for the cleaned address `email` only looks it up: a
      known address is told a link was sent and the form switches to login;
      an unknown one is told so. Nothing is written. */
  function RequestReset(form: UserPreferences, email: string, s: Store.Store): (r: AuthStep)
    ensures r.store == s && r.prefs == form
    ensures r.outcome == ResetLinkSent || r.outcome == NoAccountForReset
    ensures r.outcome == ResetLinkSent <==> exists j :: 0 <= j < |s.users| && s.users[j].email == email
    ensures r.mode == (if r.outcome == ResetLinkSent then LogIn else ForgotPassword)
  {
    if Store.GetUser(s, email).Some? then AuthStep(ResetLinkSent, s, LogIn, form)
    else AuthStep(NoAccountForReset, s, ForgotPassword, form)
  }

  /** Signing up under the cleaned address `email`: refused when the
      address is known (the form switches to login); otherwise the form's
      fields are saved under `email`, admin exactly for the super admin,
      signed in, and one registration is counted. */
  function SignUpWith(form: UserPreferences, email: string, s: Store.Store): (r: AuthStep)
    ensures r.outcome == EmailTaken || r.outcome == Registered
    ensures r.outcome == EmailTaken <==> Store.GetUser(s, email).Some?
    ensures r.outcome == EmailTaken ==> r.store == s && r.mode == LogIn && r.prefs == form
    ensures r.outcome == Registered ==>
              && r.mode == SignUp
              && r.prefs == form.(email := email, isAdmin := email == SuperAdminEmail)
              && Store.GetUser(r.store, email) == Some(r.prefs)
              && r.store == s.(users := s.users + [r.prefs], session := Some(email),
                               stats := s.stats.(totalRegistrations := s.stats.totalRegistrations + 1))
  {
    if Store.GetUser(s, email).Some? then AuthStep(EmailTaken, s, LogIn, form)
    else
      var user := form.(email := email, isAdmin := email == SuperAdminEmail);
      Store.GetAfterSave(s, user, email);
      AuthStep(Registered, Store.IncrementStat(Store.SaveUser(s, user), Store.Registration, None), SignUp, user)
  }

  /** Whoever has just signed up can log in with the same form: the
      password typed at sign-up is the one stored. */
  lemma SignUpThenLogIn(form: UserPreferences, email: string, s: Store.Store)
    requires SignUpWith(form, email, s).outcome == Registered
    ensures LogInWith(form, email, SignUpWith(form, email, s).store).outcome == LoggedIn
    ensures LogInWith(form, email, SignUpWith(form, email, s).store).prefs == SignUpWith(form, email, s).prefs
  {
  }

  /** Logging in under the cleaned address `email`: the stored record's
      password must equal the typed one exactly; admin rights are only ever
      added, for the super admin; the record is saved back, signed in, and
      one login is counted. An unknown address or a wrong password writes
      nothing. */
  function LogInWith(form: UserPreferences, email: string, s: Store.Store): (r: AuthStep)
    ensures r.mode == LogIn
    ensures Store.GetUser(s, email).None? ==> r == AuthStep(UnknownUser, s, LogIn, form)
    ensures Store.GetUser(s, email).Some? && Store.GetUser(s, email).value.password != form.password
            ==> r == AuthStep(WrongPassword, s, LogIn, form)
    ensures r.outcome == LoggedIn <==>
              Store.GetUser(s, email).Some? && Store.GetUser(s, email).value.password == form.password
    ensures r.outcome == LoggedIn ==>
              var known := Store.GetUser(s, email).value;
              && r.prefs == known.(isAdmin := known.isAdmin || email == SuperAdminEmail)
              && Store.GetUser(r.store, email) == Some(r.prefs)
              && forall i :: Store.FirstUserAt(s.users, email, i) ==>
                   r.store == s.(users := s.users[i := r.prefs], session := Some(email),
                                 stats := s.stats.(totalLogins := s.stats.totalLogins + 1))
  {
    match Store.GetUser(s, email)
    case None => AuthStep(UnknownUser, s, LogIn, form)
    case Some(known) =>
      if known.password != form.password then AuthStep(WrongPassword, s, LogIn, form)
      else
        var user := if email == SuperAdminEmail && !known.isAdmin then known.(isAdmin := true) else known;
        assert known.email == email by {
          var i := Store.UserIndex(s.users, email);
          assert Store.FirstUserAt(s.users, email, i);
        }
        Store.GetAfterSave(s, user, email);
        AuthStep(LoggedIn, Store.IncrementStat(Store.SaveUser(s, user), Store.Login, None), LogIn, user)
  }

  /** The form once its cleaned address `email` has passed the '@' check: a
      reset only looks the address up; otherwise a password shorter than
      four characters is refused before sign-up or login proper. Only a
      registration or a successful login writes. */
  function SubmitValidEmail(form: UserPreferences, email: string, mode: AuthMode, s: Store.Store): (r: AuthStep)
    ensures mode == ForgotPassword ==> r == RequestReset(form, email, s)
    ensures r.outcome == PasswordTooShort <==> mode != ForgotPassword && !PasswordLongEnough(form)
    ensures r.outcome == PasswordTooShort ==> r == AuthStep(PasswordTooShort, s, mode, form)
    ensures mode == SignUp && PasswordLongEnough(form) ==> r == SignUpWith(form, email, s)
    ensures mode == LogIn && PasswordLongEnough(form) ==> r == LogInWith(form, email, s)
    ensures r.outcome != Registered && r.outcome != LoggedIn ==> r.store == s
  {
    if mode == ForgotPassword then RequestReset(form, email, s)
    else if !PasswordLongEnough(form) then AuthStep(PasswordTooShort, s, mode, form)
    else if mode == SignUp then SignUpWith(form, email, s)
    else LogInWith(form, email, s)
  }

  /** The same holds for submitted forms: once the address has passed the
      '@' check, a sign-up with an unknown address and a long enough
      password registers, and a login with the same form then succeeds. */
  lemma SubmitSignUpThenLogIn(form: UserPreferences, email: string, s: Store.Store)
    requires PasswordLongEnough(form) && Store.GetUser(s, email).None?
    ensures SubmitValidEmail(form, email, SignUp, s).outcome == Registered
    ensures SubmitValidEmail(form, email, LogIn, SubmitValidEmail(form, email, SignUp, s).store).outcome == LoggedIn
  {
    SignUpThenLogIn(form, email, s);
  }

  /** Submitting the sign-in form in mode `mode` with the fields of `form`:
      the address is lower-cased and trimmed, and one without '@' is refused
      before the store is read. */
  function SubmitAuth(form: UserPreferences, mode: AuthMode, s: Store.Store): (r: AuthStep)
    ensures '@' !in NormalEmail(form.email) ==> r == AuthStep(InvalidEmail, s, mode, form)
    ensures '@' in NormalEmail(form.email) ==> r == SubmitValidEmail(form, NormalEmail(form.email), mode, s)
    ensures r.outcome != Registered && r.outcome != LoggedIn ==> r.store == s
  {
    var email := NormalEmail(form.email);
    if '@' !in email then AuthStep(InvalidEmail, s, mode, form)
    else SubmitValidEmail(form, email, mode, s)
  }

  // --------------------------------------------------------- onboarding

  /** The placeholder bio every new profile starts with. */
  const DefaultBio := "Je cherche une structure \U{00E0} taille humaine o\U{00F9} je peux soigner mes patients le matin et profiter du soleil l'apr\U{00E8}s-midi. L'\U{00E9}quilibre vie pro/vie perso est ma priorit\U{00E9}."

  datatype OnboardingOutcome = MissingName | MissingBio | MissingExperience | ProfileSaved

  predicate HasName(p: UserPreferences)
  {
    p.name.Some? && Trim(p.name.value) != ""
  }

  predicate HasOwnBio(p: UserPreferences)
  {
    p.bio.Some? && Trim(p.bio.value) != "" && p.bio.value != DefaultBio
  }

  predicate HasExperience(p: UserPreferences)
  {
    p.yearsExperience.Some? && p.yearsExperience.value > 0
  }

  /** Finishing onboarding: the checks run in the order name, bio, years of
      experience; the first failure is reported and nothing is written;
      when all pass the profile is saved and signed in. */
  function FinishOnboarding(p: UserPreferences, s: Store.Store): (r: (OnboardingOutcome, Store.Store))
    ensures r.0 == ProfileSaved <==>
              && p.name.Some? && !Blank(p.name.value)
              && p.bio.Some? && !Blank(p.bio.value) && p.bio.value != DefaultBio
              && p.yearsExperience.Some? && p.yearsExperience.value > 0
    ensures r.0 == MissingName <==> p.name.None? || Blank(p.name.value)
    ensures r.0 == MissingBio <==>
              && p.name.Some? && !Blank(p.name.value)
              && (p.bio.None? || Blank(p.bio.value) || p.bio.value == DefaultBio)
    ensures r.0 == MissingExperience <==>
              && p.name.Some? && !Blank(p.name.value)
              && p.bio.Some? && !Blank(p.bio.value) && p.bio.value != DefaultBio
              && (p.yearsExperience.None? || p.yearsExperience.value <= 0)
    ensures r.0 != ProfileSaved ==> r.1 == s
    ensures r.0 == ProfileSaved ==>
              && Store.GetUser(r.1, p.email) == Some(p)
              && r.1 == s.(users := r.1.users, session := Some(p.email))
              && (forall e :: e != p.email ==> Store.GetUser(r.1, e) == Store.GetUser(s, e))
              && (forall i :: Store.FirstUserAt(s.users, p.email, i) ==> r.1.users == s.users[i := p])
              && ((forall j :: 0 <= j < |s.users| ==> s.users[j].email != p.email) ==> r.1.users == s.users + [p])
  {
    assert p.name.Some? ==> (Trim(p.name.value) == "" <==> Blank(p.name.value)) by {
      if p.name.Some? { TrimEmptyIffBlank(p.name.value); }
    }
    assert p.bio.Some? ==> (Trim(p.bio.value) == "" <==> Blank(p.bio.value)) by {
      if p.bio.Some? { TrimEmptyIffBlank(p.bio.value); }
    }
    if !HasName(p) then (MissingName, s)
    else if !HasOwnBio(p) then (MissingBio, s)
    else if !HasExperience(p) then (MissingExperience, s)
    else
      assert forall e :: e != p.email ==> Store.GetUser(Store.SaveUser(s, p), e) == Store.GetUser(s, e) by {
        forall e | e != p.email ensures Store.GetUser(Store.SaveUser(s, p), e) == Store.GetUser(s, e) {
          Store.GetAfterSave(s, p, e);
        }
      }
      Store.GetAfterSave(s, p, p.email);
      (ProfileSaved, Store.SaveUser(s, p))
  }

  /** Deleting one's account, then signing out: every record under the
      address is gone, nobody is signed in, and the catalog, the matches
      and the counters are kept. */
  function DeleteAccount(s: Store.Store, email: string): (r: Store.Store)
    ensures Store.GetUser(r, email).None?
    ensures Store.GetSessionUser(r).None?
    ensures forall u :: u in r.users <==> u in s.users && u.email != email
    ensures r.users == Store.OtherUsers(s.users, email)
    ensures r == s.(users := r.users, session := None)
  {
    var d := Store.DeleteUser(s, email);
    assert forall j :: 0 <= j < |d.users| ==> d.users[j].email != email by {
      forall j | 0 <= j < |d.users| ensures d.users[j].email != email {
        assert d.users[j] in d.users;
      }
    }
    Store.ClearSession(d)
  }

  // -------------------------------------------------------------- swipe

  /** The part of the shell's state a swipe reads and writes. */
  datatype Deck = Deck(
    profiles: seq<HospitalProfile>,
    index: nat,
    detail: Option<HospitalProfile>,
    loading: bool,
    matches: seq<Match>,
    store: Store.Store)

  /** The listing a swipe applies to: the one open in detail view, if any,
      else the card at the current index. */
  function Current(d: Deck): HospitalProfile
    requires d.index < |d.profiles|
  {
    if d.detail.Some? then d.detail.value else d.profiles[d.index]
  }

  /** A swipe in direction `dir` at clock reading `now`. The boolean result
      says whether a discovery fetch is started. */
  function HandleSwipe(d: Deck, dir: Direction, now: string): (r: (Deck, bool))
    ensures d.index >= |d.profiles| ==> r == (d, false)
    ensures d.index < |d.profiles| ==>
              var m := Match(now, Current(d), [], None);
              && r.0.index == d.index + 1
              && r.0.detail.None?
              && r.0.profiles == d.profiles && r.0.loading == d.loading
              && (dir == Left ==> r.0.matches == d.matches && r.0.store == d.store)
              && (dir == Right ==> r.0.matches == [m] + d.matches
                                   && r.0.store == Store.SaveMatch(d.store, m))
              && (r.1 <==> d.detail.None? && !d.loading && d.index + 1 >= |d.profiles| - 2)
  {
    if d.index >= |d.profiles| then (d, false)
    else
      var current := Current(d);
      var m := Match(now, current, [], None);
      var d1 := if dir == Right then d.(matches := [m] + d.matches, store := Store.SaveMatch(d.store, m)) else d;
      var next := d.index + 1;
      if d.detail.Some? then (d1.(detail := None, index := next), false)
      else (d1.(index := next), !d.loading && next >= |d.profiles| - 2)
  }

  /** Accepting a listing that already has a stored match leaves the store
      as it was but still puts a second match in the shell's own list, so
      the two disagree until the list is reloaded from the store. */
  lemma RepeatedAcceptDivergesFromStore(d: Deck, now: string)
    requires d.index < |d.profiles|
    requires Store.HasMatchFor(d.store.matches, Current(d).id)
    ensures HandleSwipe(d, Right, now).0.store == d.store
    ensures |HandleSwipe(d, Right, now).0.matches| == |d.matches| + 1
  {
  }

  /** Entering the deck with the shell's catalog `profiles` at `index`: an
      empty stored catalog asks the generator for a strict fetch and leaves
      the shell's catalog and index alone; otherwise the stored catalog is
      shown and an index past its end restarts at 0. */
  function EnterDeck(s: Store.Store, profiles: seq<HospitalProfile>, index: nat)
    : (r: (seq<HospitalProfile>, nat, bool))
    ensures r.2 <==> |s.hospitals| == 0
    ensures r.2 ==> r.0 == profiles && r.1 == index
    ensures !r.2 ==> r.0 == s.hospitals && r.1 < |r.0|
    ensures !r.2 && index < |s.hospitals| ==> r.1 == index
  {
    if |s.hospitals| == 0 then (profiles, index, true)
    else (s.hospitals, if index >= |s.hospitals| then 0 else index, false)
  }

  /** Showing the card at `index` counts one view of that listing. */
  function TrackView(s: Store.Store, profiles: seq<HospitalProfile>, index: nat): (s': Store.Store)
    ensures index >= |profiles| ==> s' == s
    ensures index < |profiles| && profiles[index].id != "" ==>
              ViewsOf(s'.stats.hospitalViews, profiles[index].id)
              == ViewsOf(s.stats.hospitalViews, profiles[index].id) + 1
    ensures index < |profiles| && profiles[index].id == "" ==> s' == s
    ensures forall id :: index < |profiles| && id != profiles[index].id ==>
              ViewsOf(s'.stats.hospitalViews, id) == ViewsOf(s.stats.hospitalViews, id)
    ensures s' == s.(stats := s.stats.(hospitalViews := s'.stats.hospitalViews))
  {
    if index < |profiles| then Store.IncrementStat(s, Store.View, Some(profiles[index].id)) else s
  }

  // ---------------------------------------------------------- messaging

  /** `ms` with every match whose id is `id` replaced by `m`. */
  function ReplaceById(ms: seq<Match>, id: string, m: Match): (r: seq<Match>)
    ensures |r| == |ms|
    ensures forall j :: 0 <= j < |ms| ==> r[j] == if ms[j].id == id then m else ms[j]
  {
    seq(|ms|, j requires 0 <= j < |ms| => if ms[j].id == id then m else ms[j])
  }

  /** `i` is the first position of a match with id `id`. */
  ghost predicate FirstMatchAt(ms: seq<Match>, id: string, i: int)
  {
    0 <= i < |ms| && ms[i].id == id && forall j :: 0 <= j < i ==> ms[j].id != id
  }

  /** `m` with one recruiter message appended after the old ones and shown
      as the preview; the conversation's id and listing are kept. */
  function WithReply(m: Match, text: string, msgId: string, timestamp: string): (u: Match)
    ensures |u.messages| == |m.messages| + 1
    ensures u.messages[..|m.messages|] == m.messages
    ensures u.messages[|m.messages|] == ChatMessage(msgId, Hospital, text, timestamp)
    ensures u.lastMessage == Some(text)
    ensures u.id == m.id && u.hospital == m.hospital
  {
    var u := m.(messages := m.messages + [ChatMessage(msgId, Hospital, text, timestamp)], lastMessage := Some(text));
    assert u.messages[..|m.messages|] == m.messages;
    u
  }

  /** A recruiter replies in the conversation `matchId`, looked up in the
      shell's own list `matches`: the reply is appended and previewed, the
      match is written back to the store and to the list, and one message
      is counted. An unknown id changes nothing. */
  function RecruiterSendMessage(s: Store.Store, matches: seq<Match>, matchId: string, text: string,
                                msgId: string, timestamp: string)
    : (r: (Store.Store, seq<Match>))
    ensures (forall j :: 0 <= j < |matches| ==> matches[j].id != matchId) ==> r == (s, matches)
    ensures forall i :: FirstMatchAt(matches, matchId, i) ==>
              && r.0 == Store.IncrementStat(Store.UpdateMatch(s, WithReply(matches[i], text, msgId, timestamp)),
                                            Store.Message, None)
              && r.1 == ReplaceById(matches, matchId, WithReply(matches[i], text, msgId, timestamp))
              && r.0.stats.totalMessages == s.stats.totalMessages + 1
  {
    var i := FindIndex(matches, (m: Match) => m.id == matchId);
    if i < 0 then (s, matches)
    else
      assert FirstMatchAt(matches, matchId, i);
      assert forall i' :: FirstMatchAt(matches, matchId, i') ==> i' == i;
      var u := WithReply(matches[i], text, msgId, timestamp);
      (Store.IncrementStat(Store.UpdateMatch(s, u), Store.Message, None), ReplaceById(matches, matchId, u))
  }

  /** After a recruiter reply the candidate is no longer waiting; after a
      candidate message they are. */
  lemma ReplyEndsWaiting(m: Match, text: string, msgId: string, timestamp: string)
    ensures !Chat.AwaitingReply(WithReply(m, text, msgId, timestamp).messages)
    ensures WithReply(m, text, msgId, timestamp).lastMessage == Some(text)
  {
  }

  /** The candidate's side sends through `onUpdateMatch`: the match is
      written to the store and to the shell's list, and no counter moves. */
  function UpdateMatchEverywhere(s: Store.Store, matches: seq<Match>, updated: Match)
    : (r: (Store.Store, seq<Match>))
    ensures r.0 == Store.UpdateMatch(s, updated)
    ensures r.0.stats == s.stats && r.0.users == s.users && r.0.hospitals == s.hospitals
    ensures |r.1| == |matches|
    ensures forall j :: 0 <= j < |matches| ==> r.1[j] == if matches[j].id == updated.id then updated else matches[j]
  {
    (Store.UpdateMatch(s, updated), ReplaceById(matches, updated.id, updated))
  }

  /** A candidate message keeps the match's listing, so storing it keeps one
      match per listing. */
  lemma CandidateSendKeepsOneMatchPerHospital(s: Store.Store, m: Match, input: string, msgId: string, timestamp: string)
    requires Store.OneMatchPerHospital(s.matches)
    requires m in s.matches
    requires forall i, j :: 0 <= i < j < |s.matches| ==> s.matches[i].id != s.matches[j].id
    requires Chat.Send(m, input, msgId, timestamp).Some?
    ensures Store.OneMatchPerHospital(Store.UpdateMatch(s, Chat.Send(m, input, msgId, timestamp).value).matches)
  {
    var u := Chat.Send(m, input, msgId, timestamp).value;
    forall j | 0 <= j < |s.matches| && s.matches[j].id == u.id
      ensures s.matches[j].hospital.id == u.hospital.id
    {
      var k := IndexOf(s.matches, m);
      assert s.matches[k].id == s.matches[j].id;
    }
    Store.UpdateMatchKeepsOneMatchPerHospital(s, u);
  }

  // --------------------------------------------------------- admin rights

  /** Flips the admin flag of every user registered under `target`, and of
      the signed-in profile when it is that user. Nothing else changes. */
  function ToggleAdmin(s: Store.Store, current: UserPreferences, target: string)
    : (r: (Store.Store, UserPreferences))
    ensures r.0 == s.(users := r.0.users)
    ensures |r.0.users| == |s.users|
    ensures forall i :: 0 <= i < |s.users| ==>
              && r.0.users[i].(isAdmin := s.users[i].isAdmin) == s.users[i]
              && (r.0.users[i].isAdmin <==> (s.users[i].isAdmin != (s.users[i].email == target)))
    ensures r.1.(isAdmin := current.isAdmin) == current
    ensures r.1.isAdmin <==> (current.isAdmin != (current.email == target))
  {
    var users := seq(|s.users|, i requires 0 <= i < |s.users| =>
      if s.users[i].email == target then s.users[i].(isAdmin := !s.users[i].isAdmin) else s.users[i]);
    var me := if current.email == target then current.(isAdmin := !current.isAdmin) else current;
    (Store.SaveAllUsers(s, users), me)
  }

  /** Toggling the same user twice restores everything. */
  lemma ToggleAdminTwice(s: Store.Store, current: UserPreferences, target: string)
    ensures var r := ToggleAdmin(s, current, target);
            ToggleAdmin(r.0, r.1, target) == (s, current)
  {
    var r := ToggleAdmin(s, current, target);
    var r2 := ToggleAdmin(r.0, r.1, target);
    assert r2.0.users == s.users;
  }
}

=== FILE: generator.dfy ===
/** Normalisation of the listings the external text generator returns: the
    generator itself is an opaque input that either fails or yields parsed
    records; this module fixes their ids, list fields, image and video. */
module Generator {
  import opened Types
  import opened Text

  /** A list field as the generator may return it: a list, or by mistake a
      single string. */
  datatype RawList = Many(items: seq<string>) | One(item: string)

  /** A parsed generator record, before normalisation. */
  datatype RawProfile = RawProfile(
    id: string,
    name: string,
    location: string,
    regionVibe: string,
    size: RawList,
    specialtyFocus: seq<string>,
    bio: string,
    leisureActivities: seq<string>,
    workRhythm: RawList,
    videoUrl: Option<string>,
    distanceKm: int,
    matchPercentage: int,
    perks: seq<string>)

  /** What the generator call produced. */
  datatype Reply = Failed | Parsed(profiles: seq<RawProfile>)

  /** `strict` asks for listings fitting the candidate; `discovery` broadens. */
  datatype Mode = Strict | Discovery

  const FlorideImage := "https://images.unsplash.com/photo-1596178060671-7a80dc8059ea?q=80&w=800&auto=format&fit=crop"
  const SupervaltechImage := "https://images.unsplash.com/photo-1519494026892-80bbd2d6fd0d?q=80&w=800&auto=format&fit=crop"
  const NarbonneImage := "https://images.unsplash.com/photo-1516549655169-df83a0774514?q=80&w=800&auto=format&fit=crop"
  const MichelImage := "https://images.unsplash.com/photo-1519817650390-64a93db51149?q=80&w=800&auto=format&fit=crop"
  const RochImage := "https://images.unsplash.com/photo-1586773860418-d37222d8fce3?q=80&w=800&auto=format&fit=crop"
  const SudImage := "https://images.unsplash.com/photo-1571772996211-2f02c9727629?q=80&w=800&auto=format&fit=crop"
  const EvenFallbackImage := "https://images.unsplash.com/photo-1538108149393-fbbd81895907?q=80&w=800&auto=format&fit=crop"
  const OddFallbackImage := "https://images.unsplash.com/photo-1629909613654-28e377c37b09?q=80&w=800&auto=format&fit=crop"

  /** The video shown when the generator gives none. */
  const DefaultVideo := "https://www.youtube.com/watch?v=F_Sj8d94W2k"

  /** The name keywords, in the order they are tried. */
  const Keywords := ["floride", "supervaltech", "narbonne", "michel", "roch", "sud"]

  /** The picture for each keyword, position by position. */
  const KeywordImages := [FlorideImage, SupervaltechImage, NarbonneImage, MichelImage, RochImage, SudImage]

  /** The first keyword (by position in `Keywords`) the lower-cased name
      contains is keyword `k`. */
  ghost predicate FirstKeywordIs(name: string, k: int)
  {
    0 <= k < |Keywords| && Occurs(Keywords[k], Lower(name))
    && forall j :: 0 <= j < k ==> !Occurs(Keywords[j], Lower(name))
  }

  /** The picture for a listing: the first keyword found in the lower-cased
      name decides; when none is found, the position's parity picks one of
      two pictures. */
  function HospitalImage(name: string, index: nat): (r: string)
    ensures forall k :: FirstKeywordIs(name, k) ==> r == KeywordImages[k]
    ensures (forall k :: 0 <= k < |Keywords| ==> !Occurs(Keywords[k], Lower(name)))
            ==> r == (if index % 2 == 0 then EvenFallbackImage else OddFallbackImage)
  {
    var n := Lower(name);
    ContainsIffOccurs(n, Keywords[0]);
    ContainsIffOccurs(n, Keywords[1]);
    ContainsIffOccurs(n, Keywords[2]);
    ContainsIffOccurs(n, Keywords[3]);
    ContainsIffOccurs(n, Keywords[4]);
    ContainsIffOccurs(n, Keywords[5]);
    if Contains(n, "floride") then FlorideImage
    else if Contains(n, "supervaltech") then SupervaltechImage
    else if Contains(n, "narbonne") then NarbonneImage
    else if Contains(n, "michel") then MichelImage
    else if Contains(n, "roch") then RochImage
    else if Contains(n, "sud") then SudImage
    else if index % 2 == 0 then EvenFallbackImage
    else OddFallbackImage
  }

  /** A list field as a list: a single string becomes a one-element list. */
  function AsList(f: RawList): (r: seq<string>)
    ensures f.Many? ==> r == f.items
    ensures f.One? ==> r == [f.item]
  {
    match f
    case Many(items) => items
    case One(item) => [item]
  }

  /** The id a record gets: its own in strict mode; in discovery mode its own
      id, the clock reading and its position, joined by dashes. */
  function MintId(mode: Mode, id: string, stamp: nat, index: nat): string
  {
    match mode
    case Strict => id
    case Discovery => id + "-" + Decimal(stamp) + "-" + Decimal(index)
  }

  /** One normalised record: list fields coerced, id minted, picture chosen
      from the name, and the default video when none (or an empty one) came. */
  function Normalise(p: RawProfile, mode: Mode, stamp: nat, index: nat): (h: HospitalProfile)
    ensures h.id == MintId(mode, p.id, stamp, index)
    ensures h.size == AsList(p.size) && h.workRhythm == AsList(p.workRhythm)
    ensures h.imageUrl == HospitalImage(p.name, index)
    ensures p.videoUrl.Some? && p.videoUrl.value != "" ==> h.videoUrl == p.videoUrl
    ensures p.videoUrl.None? || p.videoUrl == Some("") ==> h.videoUrl == Some(DefaultVideo)
    ensures h.name == p.name && h.location == p.location && h.regionVibe == p.regionVibe
    ensures h.specialtyFocus == p.specialtyFocus && h.bio == p.bio
    ensures h.leisureActivities == p.leisureActivities && h.perks == p.perks
    ensures h.distanceKm == p.distanceKm && h.matchPercentage == p.matchPercentage
  {
    HospitalProfile(
      id := MintId(mode, p.id, stamp, index),
      name := p.name,
      location := p.location,
      regionVibe := p.regionVibe,
      size := AsList(p.size),
      specialtyFocus := p.specialtyFocus,
      bio := p.bio,
      leisureActivities := p.leisureActivities,
      workRhythm := AsList(p.workRhythm),
      imageUrl := HospitalImage(p.name, index),
      videoUrl := if p.videoUrl.Some? && p.videoUrl.value != "" then p.videoUrl else Some(DefaultVideo),
      distanceKm := p.distanceKm,
      matchPercentage := p.matchPercentage,
      perks := p.perks)
  }

  /** The listings a generator reply yields: nothing on failure, otherwise
      each record normalised in place. `stamps[i]` is the clock reading taken
      while record `i` is normalised. */
  function FetchResult(reply: Reply, mode: Mode, stamps: seq<nat>): (r: seq<HospitalProfile>)
    requires reply.Parsed? ==> |stamps| == |reply.profiles|
    ensures reply.Failed? ==> r == []
    ensures reply.Parsed? ==> |r| == |reply.profiles|
    ensures reply.Parsed? ==>
              forall i :: 0 <= i < |r| ==> r[i] == Normalise(reply.profiles[i], mode, stamps[i], i)
  {
    match reply
    case Failed => []
    case Parsed(ps) => seq(|ps|, i requires 0 <= i < |ps| => Normalise(ps[i], mode, stamps[i], i))
  }

  /** Two strings that end in a dash followed by the decimal renderings of
      two different numbers differ. */
  lemma DashDecimalSuffixesDiffer(a: string, b: string, i: nat, j: nat)
    requires i != j
    ensures a + "-" + Decimal(i) != b + "-" + Decimal(j)
  {
    var x, y := a + "-" + Decimal(i), b + "-" + Decimal(j);
    var di, dj := Decimal(i), Decimal(j);
    if |x| == |y| {
      if |di| == |dj| {
        assert di != dj by {
          if di == dj {
            DecimalInjective(i, j);
          }
        }
        assert x[|x| - |di|..] == di;
        assert y[|y| - |dj|..] == dj;
      } else if |di| < |dj| {
        var k := |x| - |di| - 1;
        assert x[k] == '-';
        assert y[k] == dj[|dj| - |di| - 1];
      } else {
        var k := |y| - |dj| - 1;
        assert y[k] == '-';
        assert x[k] == di[|di| - |dj| - 1];
      }
    }
  }

  /** Discovery mode gives every record of one reply its own id, whatever
      ids the generator repeated and whatever the clock read. */
  lemma DiscoveryIdsDistinct(ps: seq<RawProfile>, stamps: seq<nat>)
    requires |stamps| == |ps|
    ensures var r := FetchResult(Parsed(ps), Discovery, stamps);
            forall i, j :: 0 <= i < j < |r| ==> r[i].id != r[j].id
  {
    var r := FetchResult(Parsed(ps), Discovery, stamps);
    forall i, j | 0 <= i < j < |r| ensures r[i].id != r[j].id {
      DashDecimalSuffixesDiffer(ps[i].id + "-" + Decimal(stamps[i]), ps[j].id + "-" + Decimal(stamps[j]), i, j);
    }
  }

  /** Strict mode keeps the generator's ids, in order. */
  lemma StrictKeepsIds(ps: seq<RawProfile>, stamps: seq<nat>)
    requires |stamps| == |ps|
    ensures var r := FetchResult(Parsed(ps), Strict, stamps);
            forall i :: 0 <= i < |r| ==> r[i].id == ps[i].id
  {
  }
}

=== FILE: recruiter.dfy ===
/** The recruiter's dashboard: editing a listing's tag lists, creating,
    saving and deleting listings, replying to candidates, and the view
    statistics (total and popularity order). */
module Recruiter {
  import opened Types
  import opened Text
  import opened Seqs
  import Store
  import Controller
  import Swipe

  // ------------------------------------------------------ the edit form

  /** The list fields of a listing the form edits tag by tag. */
  datatype ListField = SpecialtyFocus | Perks | Size | WorkRhythm

  function GetList(h: HospitalProfile, f: ListField): seq<string>
  {
    match f
    case SpecialtyFocus => h.specialtyFocus
    case Perks => h.perks
    case Size => h.size
    case WorkRhythm => h.workRhythm
  }

  function SetList(h: HospitalProfile, f: ListField, items: seq<string>): (r: HospitalProfile)
    ensures GetList(r, f) == items
    ensures forall g :: g != f ==> GetList(r, g) == GetList(h, g)
    ensures r.(specialtyFocus := h.specialtyFocus, perks := h.perks, size := h.size, workRhythm := h.workRhythm) == h
  {
    match f
    case SpecialtyFocus => h.(specialtyFocus := items)
    case Perks => h.(perks := items)
    case Size => h.(size := items)
    case WorkRhythm => h.(workRhythm := items)
  }

  /** Clicking tag `v`: a present tag is removed, every copy of it; an
      absent tag is appended. */
  function Toggle(items: seq<string>, v: string): (r: seq<string>)
    ensures v in items ==> v !in r && forall x :: x != v ==> (x in r <==> x in items)
    ensures v in items ==> r == Filter(items, (x: string) => x != v)
    ensures v !in items ==> r == items + [v]
  {
    if v in items then Filter(items, (x: string) => x != v) else items + [v]
  }

  /** Removing a present tag keeps every copy of each other tag. */
  lemma TogglePresentKeepsOthers(items: seq<string>, v: string, x: string)
    requires v in items && x != v
    ensures multiset(Toggle(items, v))[x] == multiset(items)[x]
  {
    FilterKeepsCopies(items, (y: string) => y != v, x);
  }

  /** Clicking an absent tag twice leaves the list as it was. */
  lemma ToggleTwiceRestores(items: seq<string>, v: string)
    requires v !in items
    ensures Toggle(Toggle(items, v), v) == items
  {
    var p := (x: string) => x != v;
    FilterAppend(items, [v], p);
    FilterAll(items, p);
    FilterNone([v], p);
  }

  /** Clicking a present tag twice moves it to the end and keeps a single copy. */
  lemma TogglePresentTwice(items: seq<string>, v: string)
    requires v in items
    ensures Toggle(Toggle(items, v), v) == Filter(items, (x: string) => x != v) + [v]
  {
  }

  /** Toggling tag `v` of field `f` in the open form; with no form open,
      nothing happens. */
  function ToggleTag(form: Option<HospitalProfile>, f: ListField, v: string): (r: Option<HospitalProfile>)
    ensures form.None? ==> r.None?
    ensures form.Some? ==>
              && r.Some?
              && GetList(r.value, f) == Toggle(GetList(form.value, f), v)
              && forall g :: g != f ==> GetList(r.value, g) == GetList(form.value, g)
    ensures form.Some? ==>
              r.value.(specialtyFocus := form.value.specialtyFocus, perks := form.value.perks,
                       size := form.value.size, workRhythm := form.value.workRhythm) == form.value
  {
    match form
    case None => None
    case Some(h) => Some(SetList(h, f, Toggle(GetList(h, f), v)))
  }

  /** Adding a free-text perk: the trimmed input is appended to the perks
      and the input is cleared; blank input, or no open form, changes
      nothing. */
  function AddCustomTag(form: Option<HospitalProfile>, input: string): (r: (Option<HospitalProfile>, string))
    ensures form.None? || Blank(input) ==> r == (form, input)
    ensures form.Some? && !Blank(input) ==>
              && r.1 == ""
              && r.0.Some?
              && r.0.value.perks == form.value.perks + [Trim(input)]
              && r.0.value == form.value.(perks := r.0.value.perks)
              && Trim(input) != "" && !IsSpace(Trim(input)[0])
  {
    TrimEmptyIffBlank(input);
    if form.Some? && Trim(input) != "" then
      (Some(form.value.(perks := form.value.perks + [Trim(input)])), "")
    else (form, input)
  }

  // ---------------------------------------------------------- listings

  /** The picture a newly created listing starts with. */
  const NewListingImage := "https://images.unsplash.com/photo-1519494026892-80bbd2d6fd0d?q=80&w=800&auto=format&fit=crop"

  /** A new listing as the dashboard creates it at clock reading `now`: its
      id is the clock reading in decimal, its fields the dashboard's
      placeholders. */
  function NewListing(now: nat): (h: HospitalProfile)
    ensures h.id == Decimal(now)
    ensures h.size == ["SMR"] && h.workRhythm == ["Equilibre parfait"]
    ensures h.specialtyFocus == [] && h.leisureActivities == [] && h.perks == []
    ensures h.distanceKm == 0 && h.matchPercentage == 100
    ensures h.videoUrl == Some("")
  {
    HospitalProfile(
      id := Decimal(now),
      name := "Nouvel \U{00C9}tablissement",
      location := "Ville, D\U{00E9}pt",
      regionVibe := "Centre ville ensoleill\U{00E9}",
      size := ["SMR"],
      specialtyFocus := [],
      bio := "R\U{00E9}digez une bio accrocheuse...",
      leisureActivities := [],
      workRhythm := ["Equilibre parfait"],
      imageUrl := NewListingImage,
      videoUrl := Some(""),
      distanceKm := 0,
      matchPercentage := 100,
      perks := [])
  }

  /** An authored listing shows a percentage no computed score can reach. */
  lemma NewListingAboveEveryScore(now: nat, u: UserPreferences, h: HospitalProfile)
    ensures Swipe.Score(u, h) < NewListing(now).matchPercentage
  {
  }

  /** The shell's catalog `profiles` agrees with the stored one. */
  predicate InSync(s: Store.Store, profiles: seq<HospitalProfile>)
  {
    profiles == s.hospitals
  }

  /** Ids of a catalog are pairwise distinct. */
  ghost predicate DistinctIds(hs: seq<HospitalProfile>)
  {
    forall i, j :: 0 <= i < j < |hs| ==> hs[i].id != hs[j].id
  }

  /** Creating a listing: it goes to the front of both the stored catalog
      and the shell's catalog, and becomes the open form. */
  function CreateListing(s: Store.Store, profiles: seq<HospitalProfile>, now: nat)
    : (r: (Store.Store, seq<HospitalProfile>, HospitalProfile))
    ensures r.2 == NewListing(now)
    ensures r.0.hospitals == [r.2] + s.hospitals && r.0 == s.(hospitals := r.0.hospitals)
    ensures r.1 == [r.2] + profiles
    ensures InSync(s, profiles) ==> InSync(r.0, r.1)
  {
    var h := NewListing(now);
    (Store.AddHospital(s, h), [h] + profiles, h)
  }

  /** Saving the open form: the first stored listing with its id is
      replaced; in the shell's catalog every listing with its id is. */
  function SaveListing(s: Store.Store, profiles: seq<HospitalProfile>, form: HospitalProfile)
    : (r: (Store.Store, seq<HospitalProfile>))
    ensures r.0 == Store.UpdateHospital(s, form)
    ensures |r.1| == |profiles|
    ensures forall j :: 0 <= j < |profiles| ==> r.1[j] == if profiles[j].id == form.id then form else profiles[j]
  {
    (Store.UpdateHospital(s, form),
     seq(|profiles|, j requires 0 <= j < |profiles| => if profiles[j].id == form.id then form else profiles[j]))
  }

  /** With distinct ids, saving keeps the two catalogs in agreement. */
  lemma SaveListingKeepsSync(s: Store.Store, profiles: seq<HospitalProfile>, form: HospitalProfile)
    requires InSync(s, profiles) && DistinctIds(profiles)
    ensures InSync(SaveListing(s, profiles, form).0, SaveListing(s, profiles, form).1)
  {
    var r := SaveListing(s, profiles, form);
    forall j | 0 <= j < |profiles| ensures r.0.hospitals[j] == r.1[j] {
      if profiles[j].id == form.id {
        assert forall k :: 0 <= k < j ==> s.hospitals[k].id != form.id;
      }
    }
  }

  /** A catalog in which the form's id occurs at `i` and again at `k`:
      saving puts the form at `k` in the shell's catalog but leaves the
      store's listing at `k` alone, so the two catalogs no longer agree. */
  lemma SaveListingDivergesOnRepeatedId(s: Store.Store, profiles: seq<HospitalProfile>, form: HospitalProfile,
                                        i: nat, k: nat)
    requires InSync(s, profiles)
    requires i < k < |profiles| && profiles[i].id == form.id && profiles[k].id == form.id
    requires profiles[k] != form
    ensures SaveListing(s, profiles, form).1[k] == form
    ensures SaveListing(s, profiles, form).0.hospitals[k] == profiles[k]
    ensures !InSync(SaveListing(s, profiles, form).0, SaveListing(s, profiles, form).1)
  {
    var f := Store.HospitalIndex(s.hospitals, form.id);
    assert f != -1 && f <= i;
    assert SaveListing(s, profiles, form).0.hospitals == s.hospitals[f := form];
  }

  /** Deleting the open listing removes every listing with its id, from
      the store and from the shell's catalog alike. */
  function DeleteListing(s: Store.Store, profiles: seq<HospitalProfile>, id: string)
    : (r: (Store.Store, seq<HospitalProfile>))
    ensures r.0 == Store.DeleteHospital(s, id)
    ensures forall h :: h in r.1 <==> h in profiles && h.id != id
    ensures r.1 == Store.DeleteHospital(s.(hospitals := profiles), id).hospitals
    ensures InSync(s, profiles) ==> InSync(r.0, r.1)
  {
    (Store.DeleteHospital(s, id), Filter(profiles, (h: HospitalProfile) => h.id != id))
  }

  // ------------------------------------------------------------ replies

  /** Sending the typed reply in the selected conversation: it needs a
      selected conversation and a reply that is not blank; the reply goes
      out as typed and the input is cleared. Otherwise nothing changes. */
  function SendReply(s: Store.Store, matches: seq<Match>, selected: Option<string>, reply: string,
                     msgId: string, timestamp: string)
    : (r: (Store.Store, seq<Match>, string))
    ensures selected.None? || selected == Some("") || Blank(reply) ==> r == (s, matches, reply)
    ensures selected.Some? && selected.value != "" && !Blank(reply) ==>
              && r.2 == ""
              && (r.0, r.1) == Controller.RecruiterSendMessage(s, matches, selected.value, reply, msgId, timestamp)
  {
    TrimEmptyIffBlank(reply);
    if selected.Some? && selected.value != "" && Trim(reply) != "" then
      var sent := Controller.RecruiterSendMessage(s, matches, selected.value, reply, msgId, timestamp);
      (sent.0, sent.1, "")
    else (s, matches, reply)
  }

  // --------------------------------------------------------- statistics

  /** The sum of the values of a map. */
  ghost function SumValues(m: map<string, nat>): nat
    decreases |m.Keys|
  {
    if m == map[] then 0
    else
      var k :| k in m.Keys;
      m[k] + SumValues(m - {k})
  }

  /** Any key can be taken out first. */
  lemma {:induction false} SumValuesRemove(m: map<string, nat>, k: string)
    requires k in m
    ensures SumValues(m) == m[k] + SumValues(m - {k})
    decreases |m.Keys|
  {
    var k' :| k' in m.Keys && SumValues(m) == m[k'] + SumValues(m - {k'});
    if k' != k {
      assert (m - {k'}) - {k} == (m - {k}) - {k'};
      SumValuesRemove(m - {k'}, k);
      SumValuesRemove(m - {k}, k');
    }
  }

  /** The total of all per-listing view counts, as the dashboard shows it. */
  method TotalViews(views: map<string, nat>) returns (total: nat)
    ensures total == SumValues(views)
  {
    total := 0;
    var rest := views;
    while rest != map[]
      invariant total + SumValues(rest) == SumValues(views)
      decreases |rest.Keys|
    {
      var k :| k in rest;
      SumValuesRemove(rest, k);
      total := total + rest[k];
      rest := rest - {k};
    }
  }

  /** Every counted view raises the dashboard total by exactly one. */
  lemma ViewRaisesTotal(s: Store.Store, id: string)
    requires id != ""
    ensures SumValues(Store.IncrementStat(s, Store.View, Some(id)).stats.hospitalViews)
            == SumValues(s.stats.hospitalViews) + 1
  {
    var m := s.stats.hospitalViews;
    var m' := Store.IncrementStat(s, Store.View, Some(id)).stats.hospitalViews;
    assert id in m';
    SumValuesRemove(m', id);
    assert forall x :: x in m' && x != id ==> m'[x] == ViewsOf(m', x) == ViewsOf(m, x) == m[x];
    if id in m {
      SumValuesRemove(m, id);
      assert m' - {id} == m - {id};
    } else {
      assert m' - {id} == m;
    }
  }

  /** The view count of a listing. */
  function ViewKey(views: map<string, nat>): HospitalProfile -> int
  {
    (h: HospitalProfile) => ViewsOf(views, h.id)
  }

  /** The popularity chart: listings ordered by view count, most viewed
      first, ties in catalog order. */
  function Popularity(profiles: seq<HospitalProfile>, views: map<string, nat>): (r: seq<HospitalProfile>)
    ensures multiset(r) == multiset(profiles)
    ensures forall i, j :: 0 <= i < j < |r| ==> ViewsOf(views, r[i].id) >= ViewsOf(views, r[j].id)
  {
    var r := SortDesc(profiles, ViewKey(views));
    assert forall i :: 0 <= i < |r| ==> ViewKey(views)(r[i]) == ViewsOf(views, r[i].id);
    r
  }

  /** Listings with the same view count keep their catalog order. */
  lemma PopularityStable(profiles: seq<HospitalProfile>, views: map<string, nat>, k: int)
    ensures WithKey(Popularity(profiles, views), ViewKey(views), k) == WithKey(profiles, ViewKey(views), k)
  {
    SortDescStable(profiles, ViewKey(views), k);
  }
}

=== FILE: seqs.dfy ===
/** Sequence operations the application borrows from JavaScript arrays:
    `findIndex`, `filter`, and the stable `sort` used with a descending
    numeric comparator. */
module Seqs {

  /** Index of the first element satisfying `p`, or -1 when none does. */
  function FindIndex<T>(s: seq<T>, p: T -> bool): (r: int)
    ensures -1 <= r < |s|
    ensures r == -1 <==> forall i :: 0 <= i < |s| ==> !p(s[i])
    ensures 0 <= r ==> p(s[r]) && forall i :: 0 <= i < r ==> !p(s[i])
    decreases |s|
  {
    if |s| == 0 then -1
    else if p(s[0]) then 0
    else
      var k := FindIndex(s[1..], p);
      if k == -1 then -1 else k + 1
  }

  /** Some index of `s` holding `x`. */
  function IndexOf<T(==)>(s: seq<T>, x: T): (i: nat)
    requires x in s
    ensures i < |s| && s[i] == x
  {
    if s[0] == x then 0 else 1 + IndexOf(s[1..], x)
  }

  /** The elements satisfying `p`, in their original order. */
  function Filter<T(!new)>(s: seq<T>, p: T -> bool): (r: seq<T>)
    ensures |r| <= |s|
    ensures forall x :: x in r <==> x in s && p(x)
    decreases |s|
  {
    if |s| == 0 then []
    else
      assert s == [s[0]] + s[1..];
      if p(s[0]) then [s[0]] + Filter(s[1..], p) else Filter(s[1..], p)
  }

  /** Filtering distributes over concatenation, so it keeps relative order. */
  lemma {:induction false} FilterAppend<T(!new)>(a: seq<T>, b: seq<T>, p: T -> bool)
    ensures Filter(a + b, p) == Filter(a, p) + Filter(b, p)
    decreases |a|
  {
    if |a| == 0 {
      assert a + b == b;
    } else {
      assert (a + b)[1..] == a[1..] + b;
      FilterAppend(a[1..], b, p);
    }
  }

  /** Filtering with a predicate every element satisfies changes nothing. */
  lemma {:induction false} FilterAll<T(!new)>(s: seq<T>, p: T -> bool)
    requires forall i :: 0 <= i < |s| ==> p(s[i])
    ensures Filter(s, p) == s
    decreases |s|
  {
    if |s| > 0 {
      FilterAll(s[1..], p);
      assert s == [s[0]] + s[1..];
    }
  }

  /** Filtering with a predicate no element satisfies leaves nothing. */
  lemma {:induction false} FilterNone<T(!new)>(s: seq<T>, p: T -> bool)
    requires forall i :: 0 <= i < |s| ==> !p(s[i])
    ensures Filter(s, p) == []
    decreases |s|
  {
    if |s| > 0 {
      FilterNone(s[1..], p);
    }
  }

  /** Each element's key is at least the next one's. */
  ghost predicate NonIncreasing<T>(s: seq<T>, key: T -> int)
  {
    forall i, j :: 0 <= i < j < |s| ==> key(s[i]) >= key(s[j])
  }

  /** Prepending an element whose key dominates the head keeps the order. */
  lemma SortedCons<T>(a: T, s: seq<T>, key: T -> int)
    requires NonIncreasing(s, key)
    requires |s| > 0 ==> key(a) >= key(s[0])
    ensures NonIncreasing([a] + s, key)
  {
    var r := [a] + s;
    forall i, j | 0 <= i < j < |r| ensures key(r[i]) >= key(r[j]) {
      if i == 0 && j > 1 {
        assert key(s[0]) >= key(s[j - 1]);
      }
    }
  }

  /** The predicate "has key `k`": it selects one tie group of a sort. */
  function KeyIs<T>(key: T -> int, k: int): T -> bool
  {
    x => key(x) == k
  }

  /** The elements whose key equals `k`, in order. */
  function WithKey<T(!new)>(s: seq<T>, key: T -> int, k: int): seq<T>
  {
    Filter(s, KeyIs(key, k))
  }

  /** Inserts `x` after every element whose key is at least `key(x)`. */
  function InsertDesc<T>(x: T, s: seq<T>, key: T -> int): (r: seq<T>)
    requires NonIncreasing(s, key)
    ensures multiset(r) == multiset(s) + multiset{x}
    ensures NonIncreasing(r, key)
    ensures r[0] == x || (|s| > 0 && r[0] == s[0])
    decreases |s|
  {
    if |s| == 0 then [x]
    else if key(s[0]) >= key(x) then
      assert s == [s[0]] + s[1..];
      var rest := InsertDesc(x, s[1..], key);
      SortedCons(s[0], rest, key);
      [s[0]] + rest
    else
      SortedCons(x, s, key);
      [x] + s
  }

  /** A stable sort, largest key first: the result of `Array.prototype.sort`
      with the comparator `(a, b) => key(b) - key(a)`. */
  function SortDesc<T>(s: seq<T>, key: T -> int): (r: seq<T>)
    ensures multiset(r) == multiset(s)
    ensures |r| == |s|
    ensures NonIncreasing(r, key)
    decreases |s|
  {
    if |s| == 0 then []
    else
      assert s == s[..|s| - 1] + [s[|s| - 1]];
      var r := InsertDesc(s[|s| - 1], SortDesc(s[..|s| - 1], key), key);
      assert |r| == |multiset(r)|;
      r
  }

  /** A filter keeps every copy of an element it accepts. */
  lemma {:induction false} FilterKeepsCopies<T(!new)>(s: seq<T>, p: T -> bool, x: T)
    requires p(x)
    ensures multiset(Filter(s, p))[x] == multiset(s)[x]
    decreases |s|
  {
    if |s| > 0 {
      FilterKeepsCopies(s[1..], p, x);
      FilterCons(s[0], s[1..], p);
      assert [s[0]] + s[1..] == s;
    }
  }

  /** Filtering a one-element sequence. */
  lemma FilterSingle<T(!new)>(x: T, p: T -> bool)
    ensures Filter([x], p) == if p(x) then [x] else []
  {
    assert [x][1..] == [];
  }

  /** Filtering a sequence with a known head. */
  lemma FilterCons<T(!new)>(a: T, t: seq<T>, p: T -> bool)
    ensures Filter([a] + t, p) == (if p(a) then [a] else []) + Filter(t, p)
  {
    assert ([a] + t)[1..] == t;
  }

  /** Inserting into a sorted sequence appends `x` to the end of its tie group. */
  lemma {:induction false} InsertDescTies<T(!new)>(x: T, s: seq<T>, key: T -> int, k: int)
    requires NonIncreasing(s, key)
    ensures WithKey(InsertDesc(x, s, key), key, k)
         == WithKey(s, key, k) + (if key(x) == k then [x] else [])
    decreases |s|
  {
    var p := KeyIs(key, k);
    FilterSingle(x, p);
    if |s| == 0 {
      assert InsertDesc(x, s, key) == [x];
    } else if key(s[0]) >= key(x) {
      InsertDescTiesBehind(x, s, key, k);
    } else {
      assert InsertDesc(x, s, key) == [x] + s;
      FilterAppend([x], s, p);
      if key(x) == k {
        forall i | 0 <= i < |s| ensures !p(s[i]) {
          assert key(s[i]) <= key(s[0]);
        }
        FilterNone(s, p);
      }
    }
  }

  /** Prepending the same element to two sequences whose filters differ by
      a suffix keeps that difference. */
  lemma FilterConsShift<T(!new)>(a: T, t: seq<T>, u: seq<T>, p: T -> bool, tail: seq<T>)
    requires Filter(u, p) == Filter(t, p) + tail
    ensures Filter([a] + u, p) == Filter([a] + t, p) + tail
  {
    FilterCons(a, u, p);
    FilterCons(a, t, p);
    AppendAssoc(if p(a) then [a] else [], Filter(t, p), tail);
  }

  lemma AppendAssoc<T>(a: seq<T>, b: seq<T>, c: seq<T>)
    ensures a + (b + c) == (a + b) + c
  {
  }

  /** The case of `InsertDescTies` where `x` goes behind the head of `s`. */
  lemma {:induction false} InsertDescTiesBehind<T(!new)>(x: T, s: seq<T>, key: T -> int, k: int)
    requires NonIncreasing(s, key)
    requires |s| > 0 && key(s[0]) >= key(x)
    ensures WithKey(InsertDesc(x, s, key), key, k)
         == WithKey(s, key, k) + (if key(x) == k then [x] else [])
    decreases |s|, 0
  {
    var rest := InsertDesc(x, s[1..], key);
    assert InsertDesc(x, s, key) == [s[0]] + rest;
    InsertDescTies(x, s[1..], key, k);
    FilterConsShift(s[0], s[1..], rest, KeyIs(key, k), if key(x) == k then [x] else []);
    assert [s[0]] + s[1..] == s;
  }

  /** The sort is stable: every tie group keeps its order from the input. */
  lemma {:induction false} SortDescStable<T(!new)>(s: seq<T>, key: T -> int, k: int)
    ensures WithKey(SortDesc(s, key), key, k) == WithKey(s, key, k)
    decreases |s|
  {
    if |s| > 0 {
      var init, last := s[..|s| - 1], s[|s| - 1];
      SortDescStable(init, key, k);
      assert SortDesc(s, key) == InsertDesc(last, SortDesc(init, key), key);
      InsertDescTies(last, SortDesc(init, key), key, k);
      assert s == init + [last];
      FilterAppend(init, [last], KeyIs(key, k));
      FilterSingle(last, KeyIs(key, k));
    }
  }
}

=== FILE: store.dfy ===
/** The local persistence layer: users, facility listings, matches, the
    session pointer and the usage counters, each operation a function from
    the store before to the store after. Serialisation to device storage is
    not modelled; the store is the value the stored keys would decode to. */
module Store {
  import opened Types
  import opened Seqs

  datatype Store = Store(
    users: seq<UserPreferences>,
    hospitals: seq<HospitalProfile>,
    matches: seq<Match>,
    session: Option<string>,
    stats: AppStats)

  // ---------------------------------------------------------------- users

  /** `i` is the first position of a user registered under `email`. */
  ghost predicate FirstUserAt(users: seq<UserPreferences>, email: string, i: int)
  {
    0 <= i < |users| && users[i].email == email
    && forall j :: 0 <= j < i ==> users[j].email != email
  }

  /** Position of the first user with exactly this email, or -1. */
  function UserIndex(users: seq<UserPreferences>, email: string): (r: int)
    ensures r == -1 <==> forall j :: 0 <= j < |users| ==> users[j].email != email
    ensures r != -1 ==> FirstUserAt(users, email, r)
  {
    FindIndex(users, (u: UserPreferences) => u.email == email)
  }

  /** Saves a user: replaces the first record with the same email, or
      appends one, and points the session at that email. */
  function SaveUser(s: Store, user: UserPreferences): (s': Store)
    ensures forall i :: FirstUserAt(s.users, user.email, i) ==> s'.users == s.users[i := user]
    ensures (forall j :: 0 <= j < |s.users| ==> s.users[j].email != user.email)
            ==> s'.users == s.users + [user]
    ensures s'.session == Some(user.email)
    ensures s' == s.(users := s'.users, session := s'.session)
  {
    var i := UserIndex(s.users, user.email);
    var users := if i >= 0 then s.users[i := user] else s.users + [user];
    s.(users := users, session := Some(user.email))
  }

  /** The first user whose email equals `email` exactly (no case folding). */
  function GetUser(s: Store, email: string): (r: Option<UserPreferences>)
    ensures r.None? <==> forall j :: 0 <= j < |s.users| ==> s.users[j].email != email
    ensures forall i :: FirstUserAt(s.users, email, i) ==> r == Some(s.users[i])
  {
    var i := UserIndex(s.users, email);
    if i >= 0 then Some(s.users[i]) else None
  }

  /** Reading back a saved user yields exactly that user, and every other
      email reads as before. */
  lemma GetAfterSave(s: Store, user: UserPreferences, email: string)
    ensures GetUser(SaveUser(s, user), user.email) == Some(user)
    ensures email != user.email ==> GetUser(SaveUser(s, user), email) == GetUser(s, email)
  {
    var s' := SaveUser(s, user);
    var i := UserIndex(s.users, user.email);
    if i >= 0 {
      assert FirstUserAt(s'.users, user.email, i);
    } else {
      assert FirstUserAt(s'.users, user.email, |s.users|);
    }
    if email != user.email {
      var k := UserIndex(s.users, email);
      if k >= 0 {
        assert FirstUserAt(s'.users, email, k);
      } else {
        assert forall j :: 0 <= j < |s'.users| ==> s'.users[j].email != email;
      }
    }
  }

  /** The users not registered under `email`, in their stored order. */
  function OtherUsers(users: seq<UserPreferences>, email: string): (r: seq<UserPreferences>)
    ensures forall u :: u in r <==> u in users && u.email != email
  {
    Filter(users, (u: UserPreferences) => u.email != email)
  }

  /** Removing a user keeps the others in order: removing from two halves
      of the user list is removing from each half. */
  lemma OtherUsersKeepsOrder(front: seq<UserPreferences>, back: seq<UserPreferences>, email: string)
    ensures OtherUsers(front + back, email) == OtherUsers(front, email) + OtherUsers(back, email)
  {
    FilterAppend(front, back, (u: UserPreferences) => u.email != email);
  }

  /** Removes every user with this email and drops the session pointer
      if it named that email. */
  function DeleteUser(s: Store, email: string): (s': Store)
    ensures forall u :: u in s'.users <==> u in s.users && u.email != email
    ensures s'.users == OtherUsers(s.users, email)
    ensures s'.session == if s.session == Some(email) then None else s.session
    ensures s' == s.(users := s'.users, session := s'.session)
  {
    s.(users := OtherUsers(s.users, email),
       session := if s.session == Some(email) then None else s.session)
  }

  function GetAllUsers(s: Store): seq<UserPreferences>
  {
    s.users
  }

  /** Bulk replacement of the user list. */
  function SaveAllUsers(s: Store, users: seq<UserPreferences>): Store
  {
    s.(users := users)
  }

  /** The user the session pointer names; none when there is no pointer,
      when the pointer is the empty string, or when no user has that email. */
  function GetSessionUser(s: Store): (r: Option<UserPreferences>)
    ensures s.session.None? || s.session == Some("") ==> r.None?
    ensures s.session.Some? && s.session.value != "" ==>
              (r.Some? <==> exists j :: 0 <= j < |s.users| && s.users[j].email == s.session.value)
    ensures r.Some? ==> r.value in s.users && Some(r.value.email) == s.session
    ensures forall i :: s.session.Some? && s.session.value != "" && FirstUserAt(s.users, s.session.value, i)
              ==> r == Some(s.users[i])
  {
    match s.session
    case None => None
    case Some(email) => if email == "" then None else GetUser(s, email)
  }

  /** Forgets who is signed in; the user records stay. */
  function ClearSession(s: Store): (s': Store)
    ensures s'.session.None?
    ensures s' == s.(session := s'.session)
  {
    s.(session := None)
  }

  // ------------------------------------------------------------ hospitals

  /** Position of the first listing with this id, or -1. */
  function HospitalIndex(hs: seq<HospitalProfile>, id: string): (r: int)
    ensures r == -1 <==> forall j :: 0 <= j < |hs| ==> hs[j].id != id
    ensures r != -1 ==> 0 <= r < |hs| && hs[r].id == id
                        && forall j :: 0 <= j < r ==> hs[j].id != id
  {
    FindIndex(hs, (h: HospitalProfile) => h.id == id)
  }

  function GetHospitals(s: Store): seq<HospitalProfile>
  {
    s.hospitals
  }

  /** Bulk replacement of the catalog. */
  function SaveHospitals(s: Store, hs: seq<HospitalProfile>): Store
  {
    s.(hospitals := hs)
  }

  /** Replaces the first listing with the same id; an unknown id changes
      nothing and inserts nothing. */
  function UpdateHospital(s: Store, h: HospitalProfile): (s': Store)
    ensures |s'.hospitals| == |s.hospitals|
    ensures (forall j :: 0 <= j < |s.hospitals| ==> s.hospitals[j].id != h.id) ==> s' == s
    ensures forall i :: 0 <= i < |s.hospitals| && s.hospitals[i].id == h.id
              && (forall j :: 0 <= j < i ==> s.hospitals[j].id != h.id)
              ==> s'.hospitals == s.hospitals[i := h]
    ensures s' == s.(hospitals := s'.hospitals)
  {
    var i := HospitalIndex(s.hospitals, h.id);
    if i >= 0 then s.(hospitals := s.hospitals[i := h]) else s
  }

  /** Puts a listing at the front of the catalog, without checking its id. */
  function AddHospital(s: Store, h: HospitalProfile): (s': Store)
    ensures |s'.hospitals| == |s.hospitals| + 1
    ensures s'.hospitals[0] == h && s'.hospitals[1..] == s.hospitals
    ensures s' == s.(hospitals := s'.hospitals)
  {
    s.(hospitals := [h] + s.hospitals)
  }

  /** Removes every listing with this id. */
  function DeleteHospital(s: Store, id: string): (s': Store)
    ensures forall h :: h in s'.hospitals <==> h in s.hospitals && h.id != id
    ensures s' == s.(hospitals := s'.hospitals)
  {
    s.(hospitals := Filter(s.hospitals, (h: HospitalProfile) => h.id != id))
  }

  /** Deleting keeps the remaining listings in their relative order: deleting
      from two halves of a catalog is deleting from each half. */
  lemma DeleteHospitalKeepsOrder(s: Store, front: seq<HospitalProfile>, back: seq<HospitalProfile>, id: string)
    requires s.hospitals == front + back
    ensures DeleteHospital(s, id).hospitals
         == DeleteHospital(s.(hospitals := front), id).hospitals
          + DeleteHospital(s.(hospitals := back), id).hospitals
  {
    FilterAppend(front, back, (h: HospitalProfile) => h.id != id);
  }

  /** A listing that was just added can be deleted again: deleting its id
      after adding it is the same as deleting that id from the old catalog. */
  lemma DeleteUndoesAdd(s: Store, h: HospitalProfile)
    ensures DeleteHospital(AddHospital(s, h), h.id) == DeleteHospital(s, h.id)
  {
    FilterAppend([h], s.hospitals, (x: HospitalProfile) => x.id != h.id);
  }

  // -------------------------------------------------------------- matches

  /** Some stored match is for the listing with this id. */
  predicate HasMatchFor(ms: seq<Match>, hospitalId: string)
  {
    exists j :: 0 <= j < |ms| && ms[j].hospital.id == hospitalId
  }

  /** No listing has two matches. */
  ghost predicate OneMatchPerHospital(ms: seq<Match>)
  {
    forall i, j :: 0 <= i < j < |ms| ==> ms[i].hospital.id != ms[j].hospital.id
  }

  function GetMatches(s: Store): seq<Match>
  {
    s.matches
  }

  /** Records a match unless one already exists for the same listing; a new
      match goes to the front. */
  function SaveMatch(s: Store, m: Match): (s': Store)
    ensures HasMatchFor(s.matches, m.hospital.id) ==> s' == s
    ensures !HasMatchFor(s.matches, m.hospital.id) ==> s'.matches == [m] + s.matches
    ensures HasMatchFor(s'.matches, m.hospital.id)
    ensures s' == s.(matches := s'.matches)
  {
    if HasMatchFor(s.matches, m.hospital.id) then s
    else
      assert ([m] + s.matches)[0] == m;
      s.(matches := [m] + s.matches)
  }

  /** Saving the same match twice is saving it once. */
  lemma SaveMatchIdempotent(s: Store, m: Match)
    ensures SaveMatch(SaveMatch(s, m), m) == SaveMatch(s, m)
  {
  }

  /** Saving a match never creates a second match for a listing. */
  lemma SaveMatchKeepsOneMatchPerHospital(s: Store, m: Match)
    requires OneMatchPerHospital(s.matches)
    ensures OneMatchPerHospital(SaveMatch(s, m).matches)
  {
    var ms := SaveMatch(s, m).matches;
    if !HasMatchFor(s.matches, m.hospital.id) {
      forall i, j | 0 <= i < j < |ms| ensures ms[i].hospital.id != ms[j].hospital.id {
        if i == 0 {
          assert ms[j] == s.matches[j - 1];
        } else {
          assert ms[i] == s.matches[i - 1] && ms[j] == s.matches[j - 1];
        }
      }
    }
  }

  /** Replaces the first match with the same id; an unknown id changes nothing. */
  function UpdateMatch(s: Store, m: Match): (s': Store)
    ensures |s'.matches| == |s.matches|
    ensures (forall j :: 0 <= j < |s.matches| ==> s.matches[j].id != m.id) ==> s' == s
    ensures forall i :: 0 <= i < |s.matches| && s.matches[i].id == m.id
              && (forall j :: 0 <= j < i ==> s.matches[j].id != m.id)
              ==> s'.matches == s.matches[i := m]
    ensures s' == s.(matches := s'.matches)
  {
    var i := FindIndex(s.matches, (x: Match) => x.id == m.id);
    if i >= 0 then s.(matches := s.matches[i := m]) else s
  }

  /** An update that keeps each match's listing keeps one match per listing. */
  lemma UpdateMatchKeepsOneMatchPerHospital(s: Store, m: Match)
    requires OneMatchPerHospital(s.matches)
    requires forall j :: 0 <= j < |s.matches| && s.matches[j].id == m.id
               ==> s.matches[j].hospital.id == m.hospital.id
    ensures OneMatchPerHospital(UpdateMatch(s, m).matches)
  {
    var i := FindIndex(s.matches, (x: Match) => x.id == m.id);
    if i >= 0 {
      var ms := UpdateMatch(s, m).matches;
      forall a, b | 0 <= a < b < |ms| ensures ms[a].hospital.id != ms[b].hospital.id {
        assert ms[a].hospital.id == s.matches[a].hospital.id;
        assert ms[b].hospital.id == s.matches[b].hospital.id;
      }
    }
  }

  // ---------------------------------------------------------------- stats

  /** The events the application counts. */
  datatype StatKind = Login | Registration | Message | View

  /** Adds one to the counter the event names. A view counts against its
      listing id; a view without an id, or with the empty id, counts nowhere. */
  function IncrementStat(s: Store, kind: StatKind, entityId: Option<string>): (s': Store)
    ensures s' == s.(stats := s'.stats)
    ensures s'.stats.totalLogins == s.stats.totalLogins + (if kind == Login then 1 else 0)
    ensures s'.stats.totalRegistrations
            == s.stats.totalRegistrations + (if kind == Registration then 1 else 0)
    ensures s'.stats.totalMessages == s.stats.totalMessages + (if kind == Message then 1 else 0)
    ensures kind != View || entityId.None? || entityId == Some("") ==>
              s'.stats.hospitalViews == s.stats.hospitalViews
    ensures kind == View && entityId.Some? && entityId.value != "" ==>
              && s'.stats.hospitalViews.Keys == s.stats.hospitalViews.Keys + {entityId.value}
              && ViewsOf(s'.stats.hospitalViews, entityId.value)
                 == ViewsOf(s.stats.hospitalViews, entityId.value) + 1
              && forall id :: id != entityId.value ==>
                   ViewsOf(s'.stats.hospitalViews, id) == ViewsOf(s.stats.hospitalViews, id)
  {
    var st := s.stats;
    var st' := match kind
      case Login => st.(totalLogins := st.totalLogins + 1)
      case Registration => st.(totalRegistrations := st.totalRegistrations + 1)
      case Message => st.(totalMessages := st.totalMessages + 1)
      case View =>
        if entityId.Some? && entityId.value != "" then
          var id := entityId.value;
          st.(hospitalViews := st.hospitalViews[id := ViewsOf(st.hospitalViews, id) + 1])
        else st;
    s.(stats := st')
  }

  /** Every counter and every view count of `b` is at least that of `a`. */
  ghost predicate NoLess(a: AppStats, b: AppStats)
  {
    && a.totalLogins <= b.totalLogins
    && a.totalRegistrations <= b.totalRegistrations
    && a.totalMessages <= b.totalMessages
    && forall id :: ViewsOf(a.hospitalViews, id) <= ViewsOf(b.hospitalViews, id)
  }

  /** A counted event: its kind and, for a view, the listing id. */
  datatype StatEvent = StatEvent(kind: StatKind, entityId: Option<string>)

  /** Applies a run of events in order. */
  function IncrementAll(s: Store, events: seq<StatEvent>): Store
    decreases |events|
  {
    if |events| == 0 then s
    else IncrementAll(IncrementStat(s, events[0].kind, events[0].entityId), events[1..])
  }

  /** The events that are views of listing `id`. */
  function ViewsOfIn(events: seq<StatEvent>, id: string): nat
    decreases |events|
  {
    if |events| == 0 then 0
    else (if events[0] == StatEvent(View, Some(id)) then 1 else 0) + ViewsOfIn(events[1..], id)
  }

  /** No update is lost: after any run of events, a listing's view count
      has grown by exactly the number of views of it in the run, and no
      counter has decreased. */
  lemma {:induction false} IncrementAllCountsViews(s: Store, events: seq<StatEvent>, id: string)
    requires id != ""
    ensures ViewsOf(IncrementAll(s, events).stats.hospitalViews, id)
         == ViewsOf(s.stats.hospitalViews, id) + ViewsOfIn(events, id)
    ensures NoLess(s.stats, IncrementAll(s, events).stats)
    ensures IncrementAll(s, events) == s.(stats := IncrementAll(s, events).stats)
    decreases |events|
  {
    if |events| > 0 {
      var e := events[0];
      var s1 := IncrementStat(s, e.kind, e.entityId);
      IncrementAllCountsViews(s1, events[1..], id);
      assert NoLess(s.stats, s1.stats) by {
        forall x ensures ViewsOf(s.stats.hospitalViews, x) <= ViewsOf(s1.stats.hospitalViews, x) {
          if e.kind == View && e.entityId.Some? && e.entityId.value != "" && x == e.entityId.value {
          }
        }
      }
    }
  }
}

=== FILE: swipe.dfy ===
/** The swipe deck: the compatibility score of a listing for a candidate,
    the deck ordered by that score, and the effect of a swipe. */
module Swipe {
  import opened Types
  import opened Text
  import opened Seqs
  import Store

  const BaseScore := 50
  const MaxScore := 99
  const SizePoints := 20
  const VibePoints := 15
  const SpecialtyPoints := 15

  /** The candidate names a facility size and the listing offers exactly that
      size (case-sensitive). */
  predicate SizeMatches(u: UserPreferences, h: HospitalProfile)
  {
    u.preferredSize != "" && u.preferredSize in h.size
  }

  /** The candidate names a vibe, and either the listing's vibe contains it
      or it contains the first comma-separated part of the listing's vibe,
      both lower-cased. */
  predicate VibeMatches(u: UserPreferences, h: HospitalProfile)
  {
    u.preferredRegionVibe != "" &&
    var vibe := Lower(u.preferredRegionVibe);
    var hospitalVibe := Lower(h.regionVibe);
    Contains(hospitalVibe, vibe) || Contains(vibe, FirstSegment(hospitalVibe))
  }

  /** Some specialty focus of the listing contains `specialty`, ignoring case. */
  predicate AnyFocusContains(focus: seq<string>, specialty: string)
    decreases |focus|
  {
    |focus| > 0 && (Contains(Lower(focus[0]), Lower(specialty)) || AnyFocusContains(focus[1..], specialty))
  }

  /** The candidate names a specialty and some focus of the listing contains it. */
  predicate SpecialtyMatches(u: UserPreferences, h: HospitalProfile)
  {
    u.specialty != "" && AnyFocusContains(h.specialtyFocus, u.specialty)
  }

  /** The specialty bonus, stated with plain substring occurrence. */
  lemma {:induction false} AnyFocusContainsIff(focus: seq<string>, specialty: string)
    ensures AnyFocusContains(focus, specialty)
        <==> exists j :: 0 <= j < |focus| && Occurs(Lower(specialty), Lower(focus[j]))
    decreases |focus|
  {
    if |focus| > 0 {
      ContainsIffOccurs(Lower(focus[0]), Lower(specialty));
      AnyFocusContainsIff(focus[1..], specialty);
      assert forall j :: 1 <= j < |focus| ==> focus[j] == focus[1..][j - 1];
    }
  }

  /** The compatibility percentage of listing `h` for candidate `u`. */
  function Score(u: UserPreferences, h: HospitalProfile): (r: int)
    ensures BaseScore <= r <= MaxScore
    ensures r == BaseScore <==> !SizeMatches(u, h) && !VibeMatches(u, h) && !SpecialtyMatches(u, h)
    ensures SizeMatches(u, h) && VibeMatches(u, h) && SpecialtyMatches(u, h) ==> r == MaxScore
    ensures !(SizeMatches(u, h) && VibeMatches(u, h) && SpecialtyMatches(u, h)) ==>
              r == BaseScore + (if SizeMatches(u, h) then SizePoints else 0)
                   + (if VibeMatches(u, h) then VibePoints else 0)
                   + (if SpecialtyMatches(u, h) then SpecialtyPoints else 0)
  {
    var score := BaseScore
      + (if SizeMatches(u, h) then SizePoints else 0)
      + (if VibeMatches(u, h) then VibePoints else 0)
      + (if SpecialtyMatches(u, h) then SpecialtyPoints else 0);
    if score < MaxScore then score else MaxScore
  }

  /** Each bonus applies exactly under its rule, written with plain substring
      occurrence: the size must be offered verbatim, the vibes must overlap
      in one of the two directions, and a focus must mention the specialty. */
  lemma BonusRules(u: UserPreferences, h: HospitalProfile)
    ensures SizeMatches(u, h)
        <==> u.preferredSize != "" && exists j :: 0 <= j < |h.size| && h.size[j] == u.preferredSize
    ensures VibeMatches(u, h)
        <==> u.preferredRegionVibe != "" &&
             (|| Occurs(Lower(u.preferredRegionVibe), Lower(h.regionVibe))
              || Occurs(FirstSegment(Lower(h.regionVibe)), Lower(u.preferredRegionVibe)))
    ensures SpecialtyMatches(u, h)
        <==> u.specialty != "" &&
             exists j :: 0 <= j < |h.specialtyFocus| && Occurs(Lower(u.specialty), Lower(h.specialtyFocus[j]))
  {
    ContainsIffOccurs(Lower(h.regionVibe), Lower(u.preferredRegionVibe));
    ContainsIffOccurs(Lower(u.preferredRegionVibe), FirstSegment(Lower(h.regionVibe)));
    AnyFocusContainsIff(h.specialtyFocus, u.specialty);
  }

  /** A listing whose vibe has an empty first part (empty, or starting with a
      comma) earns the vibe bonus from any candidate who names a vibe. */
  lemma EmptyVibeSegmentAlwaysMatches(u: UserPreferences, h: HospitalProfile)
    requires u.preferredRegionVibe != ""
    requires |h.regionVibe| == 0 || h.regionVibe[0] == ','
    ensures VibeMatches(u, h)
  {
    var hv := Lower(h.regionVibe);
    if |hv| > 0 {
      LowerCharKeepsPunctuation(h.regionVibe[0]);
    }
    assert FirstSegment(hv) == "";
    EmptyOccurs(Lower(u.preferredRegionVibe));
  }

  /** The card shown for `h`: its score, and a distance of `roll + 5` km
      where `roll` is the random draw in [0, 50); every other field is kept. */
  function ScoreListing(u: UserPreferences, h: HospitalProfile, roll: int): (r: HospitalProfile)
    requires 0 <= roll < 50
    ensures 5 <= r.distanceKm <= 54
    ensures BaseScore <= r.matchPercentage <= MaxScore
    ensures r.(distanceKm := h.distanceKm, matchPercentage := h.matchPercentage) == h
  {
    h.(matchPercentage := Score(u, h), distanceKm := roll + 5)
  }

  /** The distance draw has no influence on the score. */
  lemma DistanceIgnoredByScore(u: UserPreferences, h: HospitalProfile, roll1: int, roll2: int)
    requires 0 <= roll1 < 50 && 0 <= roll2 < 50
    ensures ScoreListing(u, h, roll1).matchPercentage == ScoreListing(u, h, roll2).matchPercentage
    ensures ScoreListing(u, h, roll1).matchPercentage == Score(u, h)
  {
  }

  function Percentage(h: HospitalProfile): int
  {
    h.matchPercentage
  }

  /** Every catalog entry scored with its own draw, in catalog order. */
  function ScoreAll(u: UserPreferences, catalog: seq<HospitalProfile>, rolls: seq<int>): (r: seq<HospitalProfile>)
    requires |rolls| == |catalog|
    requires forall i :: 0 <= i < |rolls| ==> 0 <= rolls[i] < 50
    ensures |r| == |catalog|
    ensures forall i :: 0 <= i < |r| ==> r[i] == ScoreListing(u, catalog[i], rolls[i])
  {
    seq(|catalog|, i requires 0 <= i < |catalog| => ScoreListing(u, catalog[i], rolls[i]))
  }

  /** The deck: the scored catalog, best score first, ties in catalog order. */
  function LoadDeck(u: UserPreferences, catalog: seq<HospitalProfile>, rolls: seq<int>): (r: seq<HospitalProfile>)
    requires |rolls| == |catalog|
    requires forall i :: 0 <= i < |rolls| ==> 0 <= rolls[i] < 50
    ensures multiset(r) == multiset(ScoreAll(u, catalog, rolls))
    ensures NonIncreasing(r, Percentage)
    ensures forall i :: 0 <= i < |r| ==> BaseScore <= r[i].matchPercentage <= MaxScore
  {
    var scored := ScoreAll(u, catalog, rolls);
    var r := SortDesc(scored, Percentage);
    assert forall i :: 0 <= i < |r| ==> BaseScore <= r[i].matchPercentage <= MaxScore by {
      forall i | 0 <= i < |r| ensures BaseScore <= r[i].matchPercentage <= MaxScore {
        assert r[i] in multiset(scored);
        var j :| 0 <= j < |scored| && scored[j] == r[i];
      }
    }
    r
  }

  /** Cards with equal scores keep their catalog order. */
  lemma LoadDeckStable(u: UserPreferences, catalog: seq<HospitalProfile>, rolls: seq<int>, k: int)
    requires |rolls| == |catalog|
    requires forall i :: 0 <= i < |rolls| ==> 0 <= rolls[i] < 50
    ensures WithKey(LoadDeck(u, catalog, rolls), Percentage, k)
         == WithKey(ScoreAll(u, catalog, rolls), Percentage, k)
  {
    SortDescStable(ScoreAll(u, catalog, rolls), Percentage, k);
  }

  /** The direction of a swipe. */
  datatype Direction = Left | Right

  /** A swipe on the card at `index`: a right swipe saves a match with no
      messages for that listing under the fresh id `matchId`; either way
      the deck moves on by one card. */
  function SwipeCard(s: Store.Store, deck: seq<HospitalProfile>, index: nat, dir: Direction, matchId: string)
    : (r: (Store.Store, nat))
    requires index < |deck|
    ensures r.1 == index + 1
    ensures dir == Left ==> r.0 == s
    ensures dir == Right ==> Store.HasMatchFor(r.0.matches, deck[index].id)
    ensures dir == Right && Store.HasMatchFor(s.matches, deck[index].id) ==> r.0 == s
    ensures dir == Right && !Store.HasMatchFor(s.matches, deck[index].id) ==>
              r.0 == s.(matches := [Match(matchId, deck[index], [], None)] + s.matches)
  {
    var s' := if dir == Right then Store.SaveMatch(s, Match(matchId, deck[index], [], None)) else s;
    (s', index + 1)
  }
}

=== FILE: text.dfy ===
/** The string primitives the application relies on: `String.prototype.trim`,
    `toLowerCase`, `includes`, the first field of `split(',')`, and the
    decimal rendering of a number inside a template literal. */
module Text {

  /** The characters JavaScript's `trim` removes: the WhiteSpace and
      LineTerminator productions of ECMAScript, space separators included. */
  predicate IsSpace(c: char)
  {
    || ('\U{0009}' <= c <= '\U{000D}')
    || c == ' ' || c == '\U{00A0}' || c == '\U{1680}'
    || ('\U{2000}' <= c <= '\U{200A}')
    || c == '\U{2028}' || c == '\U{2029}' || c == '\U{202F}' || c == '\U{205F}'
    || c == '\U{3000}' || c == '\U{FEFF}'
  }

  /** Every character of `s` is white space (the empty string included). */
  ghost predicate Blank(s: string)
  {
    forall i :: 0 <= i < |s| ==> IsSpace(s[i])
  }

  /** `s` without its leading white space. */
  function TrimStart(s: string): (r: string)
    ensures |r| <= |s| && r == s[|s| - |r|..]
    ensures forall i :: 0 <= i < |s| - |r| ==> IsSpace(s[i])
    ensures |r| > 0 ==> !IsSpace(r[0])
    decreases |s|
  {
    if |s| > 0 && IsSpace(s[0]) then TrimStart(s[1..]) else s
  }

  /** `s` without its trailing white space. */
  function TrimEnd(s: string): (r: string)
    ensures |r| <= |s| && r == s[..|r|]
    ensures forall i :: |r| <= i < |s| ==> IsSpace(s[i])
    ensures |r| > 0 ==> !IsSpace(r[|r| - 1])
    decreases |s|
  {
    if |s| > 0 && IsSpace(s[|s| - 1]) then TrimEnd(s[..|s| - 1]) else s
  }

  /** `r` is the slice of `s` that starts at `i`, and everything of `s`
      before and after that slice is white space. */
  ghost predicate TrimmedAt(s: string, r: string, i: int)
  {
    0 <= i && i + |r| <= |s| && r == s[i..i + |r|] && Blank(s[..i]) && Blank(s[i + |r|..])
  }

  /** `String.prototype.trim`: the result is a middle slice of the input
      with only white space cut off either side, and it neither starts nor
      ends with white space. */
  function Trim(s: string): (r: string)
    ensures |r| <= |s|
    ensures exists i :: TrimmedAt(s, r, i)
    ensures |r| > 0 ==> !IsSpace(r[0]) && !IsSpace(r[|r| - 1])
  {
    var t := TrimStart(s);
    var r := TrimEnd(t);
    assert TrimmedAt(s, r, |s| - |t|);
    r
  }

  /** A string trims to nothing exactly when it is all white space: the
      `!input.trim()` guards of the application. */
  lemma TrimEmptyIffBlank(s: string)
    ensures Trim(s) == "" <==> Blank(s)
  {
  }

  /** Trimming keeps the characters between the first and last non-space. */
  lemma TrimKeepsInterior(s: string)
    requires |s| > 0 && !IsSpace(s[0]) && !IsSpace(s[|s| - 1])
    ensures Trim(s) == s
  {
  }

  /** Trimming twice trims nothing more. */
  lemma TrimIdempotent(s: string)
    ensures Trim(Trim(s)) == Trim(s)
  {
    if |Trim(s)| > 0 {
      TrimKeepsInterior(Trim(s));
    }
  }

  /** `toLowerCase` on one character; only the ASCII and Latin-1 capitals
      are folded. */
  function LowerChar(c: char): char
  {
    if 'A' <= c <= 'Z' || ('\U{00C0}' <= c <= '\U{00DE}' && c != '\U{00D7}')
    then (c as int + 32) as char
    else c
  }

  /** `String.prototype.toLowerCase`, character by character. */
  function Lower(s: string): (r: string)
    ensures |r| == |s|
    ensures forall i :: 0 <= i < |s| ==> r[i] == LowerChar(s[i])
  {
    seq(|s|, i requires 0 <= i < |s| => LowerChar(s[i]))
  }

  /** Folding a character leaves the separators the application looks for. */
  lemma LowerCharKeepsPunctuation(c: char)
    ensures LowerChar(c) == ',' <==> c == ','
    ensures LowerChar(c) == '@' <==> c == '@'
  {
  }

  /** `needle` occurs in `hay` starting at index `i`. */
  ghost predicate OccursAt(needle: string, hay: string, i: int)
  {
    0 <= i && i + |needle| <= |hay| && hay[i..i + |needle|] == needle
  }

  /** `needle` occurs somewhere in `hay`: the meaning of `hay.includes(needle)`. */
  ghost predicate Occurs(needle: string, hay: string)
  {
    exists i :: OccursAt(needle, hay, i)
  }

  /** `hay.includes(needle)`, by trying each start position in turn. */
  predicate Contains(hay: string, needle: string)
    decreases |hay|
  {
    needle <= hay || (|hay| > 0 && Contains(hay[1..], needle))
  }

  /** The search finds `needle` exactly when it occurs in `hay`. */
  lemma {:induction false} ContainsIffOccurs(hay: string, needle: string)
    ensures Contains(hay, needle) <==> Occurs(needle, hay)
    decreases |hay|
  {
    if needle <= hay {
      assert OccursAt(needle, hay, 0);
    } else if |hay| == 0 {
    } else {
      ContainsIffOccurs(hay[1..], needle);
      if Contains(hay[1..], needle) {
        var i :| OccursAt(needle, hay[1..], i);
        assert hay[i + 1..i + 1 + |needle|] == hay[1..][i..i + |needle|];
        assert OccursAt(needle, hay, i + 1);
      }
      if Occurs(needle, hay) {
        var i :| OccursAt(needle, hay, i);
        assert hay[1..][i - 1..i - 1 + |needle|] == hay[i..i + |needle|];
        assert OccursAt(needle, hay[1..], i - 1);
      }
    }
  }

  /** The empty string occurs in every string. */
  lemma EmptyOccurs(hay: string)
    ensures Contains(hay, "")
  {
  }

  /** `s.split(',')[0]`: the text before the first comma, or all of `s`. */
  function FirstSegment(s: string): (r: string)
    ensures r <= s
    ensures ',' !in r
    ensures |r| < |s| ==> s[|r|] == ','
    decreases |s|
  {
    if |s| == 0 || s[0] == ',' then "" else [s[0]] + FirstSegment(s[1..])
  }

  /** A decimal digit character. */
  predicate IsDigit(c: char)
  {
    '0' <= c <= '9'
  }

  /** The decimal rendering of a natural number, as a template literal prints it. */
  function Decimal(n: nat): (r: string)
    ensures |r| >= 1
    ensures forall i :: 0 <= i < |r| ==> IsDigit(r[i])
    decreases n
  {
    var d := ['0' + (n % 10) as char];
    if n < 10 then d else Decimal(n / 10) + d
  }

  /** Distinct numbers print differently. */
  lemma {:induction false} DecimalInjective(m: nat, n: nat)
    requires Decimal(m) == Decimal(n)
    ensures m == n
    decreases m
  {
    var a, b := Decimal(m), Decimal(n);
    assert a[|a| - 1] == '0' + (m % 10) as char;
    assert b[|b| - 1] == '0' + (n % 10) as char;
    assert m % 10 == n % 10;
    if m >= 10 && n >= 10 {
      assert Decimal(m / 10) == a[..|a| - 1];
      assert Decimal(n / 10) == b[..|b| - 1];
      DecimalInjective(m / 10, n / 10);
    }
  }
}

=== FILE: types.dfy ===
/** The records of the matching application: facility listings, candidate
    profiles, chat messages, matches and usage statistics. Ids and timestamps
    are opaque strings supplied by the caller. */
module Types {

  /** A value that may be missing (an optional field, or `undefined`). */
  datatype Option<T> = None | Some(value: T)

  /** A facility listing as shown on a swipe card. */
  datatype HospitalProfile = HospitalProfile(
    id: string,
    name: string,
    location: string,
    regionVibe: string,
    size: seq<string>,
    specialtyFocus: seq<string>,
    bio: string,
    leisureActivities: seq<string>,
    workRhythm: seq<string>,
    imageUrl: string,
    videoUrl: Option<string>,
    distanceKm: int,
    matchPercentage: int,
    perks: seq<string>)

  /** The availability a candidate advertises on their profile. */
  datatype Status = Curious | Available | Watching

  /** A registered candidate and the preferences the scorer reads.
      An absent admin flag reads as false everywhere it is used, so it is a
      plain boolean here. */
  datatype UserPreferences = UserPreferences(
    name: Option<string>,
    yearsExperience: Option<int>,
    email: string,
    password: Option<string>,
    isAdmin: bool,
    specialty: string,
    preferredRegionVibe: string,
    leisure: string,
    preferredSize: string,
    workLifeBalance: string,
    status: Option<Status>,
    avatar: Option<string>,
    bio: Option<string>)

  /** Who wrote a chat message: the candidate or the facility's recruiter. */
  datatype Sender = User | Hospital

  datatype ChatMessage = ChatMessage(id: string, sender: Sender, text: string, timestamp: string)

  /** An accepted facility, with an embedded snapshot of the listing. */
  datatype Match = Match(
    id: string,
    hospital: HospitalProfile,
    messages: seq<ChatMessage>,
    lastMessage: Option<string>)

  /** Process-wide counters; `hospitalViews` maps a listing id to its views. */
  datatype AppStats = AppStats(
    totalLogins: nat,
    totalRegistrations: nat,
    totalMessages: nat,
    hospitalViews: map<string, nat>)

  /** The view count of a listing; an id never viewed counts as 0. */
  function ViewsOf(views: map<string, nat>, id: string): nat
  {
    if id in views then views[id] else 0
  }
}
